=== FILE: README.md ===
# ImageAssertion in Dafny

A model of `ImageAssertion.assert_image`, a screenshot assertion for UI tests. Given a test output folder, a folder of reference images, an image name and a threshold, it does the following:

1. Creates `screens_diff` and `screens_temp` under the test output when they are missing.
2. Finds the latest `Run<n>` folder, numerically.
3. Copies `<run>/<name>.png` into `screens_temp`.
4. When `<ref>/masks/<name>_mask.png` exists, masks both the copy and the reference with ImageMagick `convert`.
5. Compares the two images with `compare -metric MAE` and classifies the tool's stderr against the threshold.

Only four status lines can be printed: the started line (line 32), the not-found line (line 47), the diff-too-large line (line 95) and the verdict line (line 102). The result is `true` or `false`, or a Ruby exception is raised.

## Modules

- `Wrappers`: `Option` and `Result`.
- `Errors`: the Ruby exceptions this model raises. Others the program can raise are listed under "Left out".
- `RubyStrings`: the parts of Ruby's `String` the code depends on:
  - `to_i` and `to_f`, read as exact integers and reals;
  - `gsub` with a literal pattern;
  - whether `/[0-9]*\.?[0-9]+/` matches.
- `Paths`:
  - `File.join`, modelled after Ruby's separator handling;
  - `File.basename`;
  - the folder and file layout (lines 15-37).
- `Files`: an abstract filesystem of regular files and directories, with these operations:
  - `Dir.mkdir` guarded by `File.directory?`;
  - `FileUtils.cp` into a directory;
  - an external program writing its output file.
- `RunLocator`: `find_last_folder`. The `Dir.glob` listing is an input.
- `Classifier`: `process_imagemagick_result` with `MAX_ALLOWED_DIFF_VALUE`.
- `ImageAssertion`: `mask` and `assert_image`.
  - `convert` and `compare` are uninterpreted functions of the files they read (`Tools`).
  - An `Execution` records the outcome, the final filesystem, the status lines printed, and every program run. Each run is stored with its paths; a `compare` run also stores its stderr.

## Where the code departs from its evident intent (this model follows the code)

- **Output without a digit raises.**
  - The intent: lines 97-99 would report a failed `compare` with the tool's own text.
  - The code: `stderr.match(...)` is `nil`, so `.length` raises `NoMethodError` at line 83, before line 97 is reached. Lines 97-99 can never run.
  - In the model: `Classifier.ProcessResult` returns `Err(UndefinedMethodOnNil)` with no status line.
- **Error text with a digit passes.**
  - The intent: the comment at line 82 takes a number in the output as the sign that `compare` succeeded and printed a metric.
  - The code: any digit anywhere satisfies the test at line 83. `to_f` then reads text that does not start with a number as 0.0, which is below any positive threshold. An example is `compare: unable to open image 'foo2.png'`.
  - In the model: `Classifier.ErrorTextWithDigitPasses` for any such text, and `Classifier.MissingFileErrorPasses` for that example.
- **No run folder raises.**
  - The intent: `find_last_folder` reports "no run folder" by returning `nil` (line 69).
  - The code: line 29 passes that `nil` to `File.join`, which raises `TypeError`. This happens after both folders were created and before anything is printed.
  - In the model: `ImageAssertion.NoRunFolderRaises`.
- **A capture missing from the run folder raises.**
  - The intent: lines 44-48 report "Expected or reference image ... not found" when the received image is missing.
  - The code: `FileUtils.cp` at line 29 raises `Errno::ENOENT` first. So for a name without '/' and without a mask, the received half of the test at line 44 can never fail.
  - In the model: `ImageAssertion.MissingCaptureRaises`.
- **A name with a folder part is never found.**
  - The intent: a name such as `sub/x` names the capture `<run>/sub/x.png` and its copy.
  - The code: `FileUtils.cp` at line 29 copies into `screens_temp` under the basename `x.png`, but lines 30 and 44 look for `screens_temp/sub/x.png`. Without a mask, and unless that file was already there, the assertion prints "not found" and `compare` never runs.
  - In the model: `ImageAssertion.NestedNameIsNotFound`.
- **A regular file where a folder belongs raises.**
  - The intent: the guards at lines 17 and 25 make folder creation safe to repeat.
  - The code: the guards test `File.directory?`. A regular file of that name passes the guard, and `Dir.mkdir` raises `Errno::EEXIST` (`Files.MakeDirUnlessPresent`).

## Model

| member | source | states |
|---|---|---|
| `RunLocator.FindLastFolder` | image_assertion.rb:64-74 | nil exactly when the listing is empty; otherwise an entry of the listing whose `gsub`/`to_i` key is at least every other entry's key |
| `RunLocator.RunNumberOfEntry` | image_assertion.rb:66-72 | for an entry `<test_output>/Run<name>` with no '/' in the name, the key is `name.to_i` |
| `RunLocator.RunNumberOfNumberedEntry` | image_assertion.rb:72 | the key of `Run<n>` is n |
| `RunLocator.LatestRunByNumber` | image_assertion.rb:71-73 | when every entry is `Run<n>`, the result is the entry with the largest n, whatever the listing order |
| `RunLocator.Run10BeatsRun2` | image_assertion.rb:71-73 | among Run1, Run2 and Run10, Run10 is chosen: the order is numeric, not lexical |
| `RunLocator.RunNumber` | image_assertion.rb:72 | an entry without any digit sorts as run 0, because deleting the mask adds no digit |
| `RunLocator.NonNumericSuffixIsZero` | image_assertion.rb:72 | a suffix that does not start with whitespace, a sign or a digit counts as run 0, whatever digits come later (`Run_7` sorts like `Runx`) |
| `RubyStrings.GsubDeleteWithoutOccurrence` | image_assertion.rb:72 | `gsub(pat, '')` leaves a text in which `pat` does not occur unchanged |
| `RubyStrings.GsubDeleteLeading` | image_assertion.rb:72 | an occurrence of `pat` at the front is deleted and the deletion goes on with the rest |
| `RubyStrings.GsubDeleteWithoutSeparator` | image_assertion.rb:72 | a pattern that contains '/' does not occur in a text without '/', so that text is left unchanged |
| `RubyStrings.ToIShowNat` | image_assertion.rb:72 | `to_i` reads back a decimal rendering, with or without a leading '-', when the text after it starts with neither a digit nor '_', nor with 'd' or 'D' after a lone 0 |
| `RubyStrings.ToIWithoutDigit` | image_assertion.rb:72 | `to_i` of a text without digits is 0 |
| `RubyStrings.ToIWithoutLeadingNumber` | image_assertion.rb:72 | `to_i` of a text that does not start with whitespace, a sign or a digit is 0 |
| `RubyStrings.GsubDelete` | image_assertion.rb:72 | deleting every occurrence of a pattern never lengthens the text and adds no character that was not there |
| `RubyStrings.MatchesNumberTokenIffDigit` | image_assertion.rb:83 | `/[0-9]*\.?[0-9]+/` matches somewhere in a text exactly when the text contains a digit |
| `RubyStrings.ToFShowNat` | image_assertion.rb:89 | `to_f` reads back a whole number followed by any text that does not continue it: no digit, fraction, exponent mark or underscore |
| `RubyStrings.ToFDecimal` | image_assertion.rb:89 | `to_f` reads back `whole.digits` followed by any text that does not start with a digit, an exponent mark or an underscore |
| `RubyStrings.ToFWithoutLeadingNumber` | image_assertion.rb:89 | text that starts with anything but whitespace, a sign, a digit or '.' reads as 0.0 |
| `Paths.Join` | image_assertion.rb:15-16 | `File.join(a, b)` ends with `b` and only separators stand between `a` and `b`; a relative `b` is preceded by exactly one '/' when `a` does not end in one and follows `a` directly when it does; an absolute `b` follows `a` with its ending separators removed |
| `Paths.LastComponent` | image_assertion.rb:29 | `File.basename` as `FileUtils.cp` uses it to name the copy: a '/'-free ending of the path that is either all of it or preceded by '/' |
| `Paths.LastComponentOfJoin` | image_assertion.rb:29 | the basename of `File.join(dir, name)` is `name` when `name` has no separator |
| `Paths.DiffDir` | image_assertion.rb:15 | `<test_output>/screens_diff` |
| `Paths.RefMasksDir` | image_assertion.rb:16 | `<ref>/masks` |
| `Paths.RefImage` | image_assertion.rb:19-20 | `<ref>/<name>.png` |
| `Paths.MaskPath` | image_assertion.rb:21 | `<ref>/masks/<name>_mask.png` |
| `Paths.TempDir` | image_assertion.rb:22 | `<test_output>/screens_temp` |
| `Paths.DiffImage` | image_assertion.rb:23 | `<test_output>/screens_diff/<name>.png` |
| `Paths.TempFile` | image_assertion.rb:30-37 | every temporary file is named by `File.join` under `screens_temp`: it ends in the given name, and is `<test_output>/screens_temp/<name>` for a plain folder and a relative name |
| `Paths.ReceivedCopy` | image_assertion.rb:30 | `<test_output>/screens_temp/<name>.png` |
| `Paths.MaskedReceived` | image_assertion.rb:35 | `<test_output>/screens_temp/<name>_masked.png` |
| `Paths.MaskedReference` | image_assertion.rb:37 | `<test_output>/screens_temp/<name>_ref_masked.png` |
| `Paths.Resolve` | image_assertion.rb:15-37 | the reference, the diff and the copy all end in the same `<name>.png`; for every output folder and name, the copy, the masked copy and the masked reference are three different files, and the diff is not the copy |
| `Paths.TempOutputsDistinct` | image_assertion.rb:23-37 | for every output folder (a trailing '/' included) and every name, masking never overwrites the copied capture, the two masked outputs are different files, and the diff path differs from the copy |
| `Files.MakeDirUnlessPresent` | image_assertion.rb:17 | fails exactly when a regular file is in the way; otherwise the directory exists afterwards, nothing else changes, and a present directory is left alone |
| `Files.MakeDirIdempotent` | image_assertion.rb:25 | creating a directory twice is the same as creating it once |
| `Files.Copy` | image_assertion.rb:29 | succeeds exactly when the source is a regular file and the target is neither a directory nor the source; then the target holds the source's contents and every other file is unchanged; the same-file, is-a-directory and no-such-file errors |
| `Files.WriteOutput` | image_assertion.rb:59-61 | a produced output lands at its path unless that path is a directory; every other path keeps its contents; no file disappears |
| `Classifier.EffectiveThreshold` | image_assertion.rb:84-86 | the threshold used is never 0; a non-zero threshold is kept; a non-negative one becomes positive |
| `Classifier.ProcessResult` | image_assertion.rb:76-104 | raises exactly when the output has no digit; otherwise passes exactly when `to_f` of the output is below the threshold, with 0 meaning 1.0; a pass prints one success line; a failure prints the too-large line, carrying the threshold used and the score, and then the not-equal line |
| `Classifier.ZeroThresholdIsDefault` | image_assertion.rb:84-86 | a threshold of 0 behaves exactly like 1.0, status lines included |
| `Classifier.WholeScoreVerdict` | image_assertion.rb:88-93 | output starting with a whole score, not continued by a fraction, an exponent or an underscore, passes exactly when that score is below the effective threshold |
| `Classifier.ScoreAtThresholdFails` | image_assertion.rb:89 | a score equal to the effective threshold fails: the comparison is strict |
| `Classifier.ErrorTextWithDigitPasses` | image_assertion.rb:83-93 | any output that contains a digit but does not start with whitespace, a sign, a digit or '.' passes with exactly the success line under any non-negative threshold |
| `Classifier.MissingFileErrorPasses` | image_assertion.rb:83-93 | the text `compare: unable to open image 'foo2.png'` passes under any non-negative threshold |
| `Classifier.ScoreBelowThresholdPasses` | image_assertion.rb:89-93 | a score of 1.8 passes under a threshold of 2.5 |
| `ImageAssertion.Mask` | image_assertion.rb:59-61 | the masked image lands at the result path; every other path and all directories are unchanged |
| `ImageAssertion.CopyCapture` | image_assertion.rb:27-30 | raises without a run folder; after a copy the directories are unchanged |
| `ImageAssertion.Prepare` | image_assertion.rb:15-30 | only `screens_diff` and `screens_temp` can be added as directories, and both exist once preparation succeeds; success needs a run folder; a regular file named `screens_diff` raises before anything changes; with no run folder and both folders creatable it raises the nil-path error |
| `ImageAssertion.CaptureIsCopied` | image_assertion.rb:27-30 | for a name without '/', after preparation the received copy in `screens_temp` holds `<latest run>/<name>.png` |
| `ImageAssertion.SelectPair` | image_assertion.rb:34-42 | with a mask, `convert` runs twice and the masked copies are compared; without one, nothing runs and the originals are compared |
| `ImageAssertion.CompareStage` | image_assertion.rb:44-54 | a missing file gives `false` with a not-found line and no `compare`; otherwise `compare` runs once, its diff lands in `screens_diff`, and its stderr decides the outcome |
| `ImageAssertion.Proceed` | image_assertion.rb:32-54 | the started line comes first; `compare` is the last program run; a raise or a pass implies `compare` ran; a verdict's last line carries its label |
| `ImageAssertion.AssertGiven` | image_assertion.rb:15-55 | the filesystem gains at most the two folders; `compare` runs at most once, last; a verdict is `compare`'s stderr classified |
| `ImageAssertion.AssertImage` | image_assertion.rb:11-55 | a missing argument gives `false` with no effect; `true` implies `compare` ran and reported a score below the effective threshold; no regular file or directory is lost |
| `ImageAssertion.PreexistingFoldersChangeNothing` | image_assertion.rb:17-25 | a run that finds both folders already present behaves exactly like one that creates them |
| `ImageAssertion.NoRunFolderRaises` | image_assertion.rb:27-29 | without a run folder the call raises with both folders created, no line printed and no program run |
| `ImageAssertion.NestedNameIsNotFound` | image_assertion.rb:29-48 | for a relative name containing '/' whose copy path did not exist before, without a mask, the call returns false with exactly the started and not-found lines and runs no program |
| `ImageAssertion.MissingCaptureRaises` | image_assertion.rb:27-29 | when the latest run folder lacks `<name>.png`, the call raises `Errno::ENOENT` for that path with both folders created, no line printed and no program run |
| `ImageAssertion.MaskedCopiesAreCompared` | image_assertion.rb:34-52 | with a mask, the copy and then the reference are masked into `screens_temp`, and `compare` sees the masked reference and the masked copy and writes `screens_diff/<name>.png` |
| `ImageAssertion.OriginalsAreComparedWithoutMask` | image_assertion.rb:39-52 | without a mask nothing is converted, and `compare` sees the reference and the copied capture |
| `ImageAssertion.MissingReferenceFailsWithoutCompare` | image_assertion.rb:44-48 | no mask and no reference: `false` with exactly the started and not-found lines, and no program run |
| `ImageAssertion.WholeScoreBelowThresholdPasses` | image_assertion.rb:44-53 | for a name without '/', when `compare` reports a whole score below the effective threshold, the assertion passes with exactly the started and success lines |

## Left out

- Shelling out:
  - the `convert` and `compare` command lines, `Shellwords` escaping, the `/usr/local/bin/compare` path and `Open3`;
  - the programs are functions of the contents of their input files, and only `compare`'s stderr and diff image are kept.
- The `null:` argument of `im_compare` (line 121) cannot occur, because `assert_image` always passes a diff path.
- Status-line rendering:
  - `create_status` and `print_status` add a timestamp from `Time.new` and write to `$stderr`;
  - the model records each line's label and the kind of message with its data.
- `Dir.glob` is not modelled. The listing of `Run*` entries is an input.
- Filesystem failures:
  - modelled: `Dir.mkdir` where a regular file stands (`Errno::EEXIST`); `FileUtils.cp` from a missing source (`Errno::ENOENT`), from or onto a directory (`Errno::EISDIR`), or onto the source itself (`ArgumentError`);
  - not modelled: `Dir.mkdir` under a missing parent folder (`Errno::ENOENT`, lines 17 and 25), permissions, symbolic links, and other processes changing the disk.
- A missing `/usr/local/bin/compare`. In the model `compare` always runs. In Ruby the outcome depends on escaping:
  - when no path needs escaping, Ruby runs the command without a shell and `Open3.popen3` raises `Errno::ENOENT` (line 123);
  - when `Shellwords.escape` (lines 119-121) adds a backslash, for example before a space in a path, the command goes through `/bin/sh`; nothing is raised, and the shell's "not found" message is classified at line 83. It passes when that message holds a digit, as dash's `sh: 1: ...` does, and raises `NoMethodError` otherwise.
- `File.basename` is modelled only for paths that do not end in '/', which is what `File.join(run, name)` produces.
- `to_i` ignores underscores between digits and radix prefixes.
- `to_f`:
  - ignores exponents, underscores and hexadecimal forms;
  - is an exact real rather than an IEEE double, so rounding is not modelled;
  - `MAX_ALLOWED_DIFF_VALUE` and the threshold are reals.
- Classifier.ProcessResult: `to_f` stops before an exponent, so a score that `compare` prints in exponent form reads wrongly. `compare` prints the MAE with `%g`, so a score below 1e-4 comes out as, for example, `3e-05 (4.6e-10)`. The model reads 3.0 and fails it; Ruby reads 3e-05 and passes it. The `to_f` lemmas therefore require the text after the number not to start with 'e', 'E' or '_'.
- A threshold that is not a number is not modelled: `nil` makes `to_f < threshold` raise `ArgumentError` (line 89). The threshold is a real.
- RunLocator.FindLastFolder: promises only that the chosen key is maximal. Ruby's sort is not stable, so which of several entries with equal keys comes first is unspecified. The model keeps the earliest.
- Classifier.ProcessResult: the too-large line carries the threshold and score as reals, not as Ruby's float formatting.
- Classifier.ProcessResult: output that is not valid UTF-8 makes `match` raise `ArgumentError` (lines 83 and 124). Text here is a sequence of characters, so every output is well formed.
- Ruby versions: the model follows Ruby 3.1 and earlier, where `File.exists?` (lines 34 and 44) is defined. Ruby 3.2 removed it, so there every call that gets past the copy raises `NoMethodError` right after the started line. `require 'FileUtils'` (line 3) loads only on a case-insensitive filesystem; elsewhere it raises `LoadError` before `ImageAssertion` is defined.
- Files.Copy: when the source is a directory, `FileUtils.cp` creates an empty target file before reading fails with `Errno::EISDIR`. The model raises without creating that file, so `Prepare` and `AssertImage` leave no empty `screens_temp/<name>.png` behind.

=== FILE: classifier.dfy ===
/**
 * `process_imagemagick_result` (image_assertion.rb:76-104): turns the text
 * `compare -metric MAE` printed on stderr into a verdict and status lines.
 */
module Classifier {
  import opened Wrappers
  import opened Errors
  import opened RubyStrings

  /** `MAX_ALLOWED_DIFF_VALUE` (line 7). */
  const MaxAllowedDiffValue: real := 1.0

  datatype Label = Started | Passed | Failed

  /**
   * The messages of the status lines. Their rendering, with the
   * wall-clock time in front, is not modelled.
   */
  datatype Message =
    /** "Asserting <file>." */
    | Asserting(fileName: string)
    /** "Expected or reference image <file> not found." */
    | NotFound(fileName: string)
    /** "<file> asserted successfully." */
    | AssertedSuccessfully(fileName: string)
    /** "<file> is not equal to the reference." */
    | NotEqual(fileName: string)
    /** "expected diff is smaller than <threshold> but <score>." */
    | DiffTooLarge(threshold: real, score: real)

  /** One `print_status(create_status(label, message))`. */
  datatype StatusLine = StatusLine(status: Label, message: Message)

  /** A verdict or a raised exception, and the status lines printed on the way. */
  datatype Classification = Classification(result: Result<bool, RubyError>, log: seq<StatusLine>)

  /** Lines 84-86: a threshold of 0 stands for "unset" and becomes the default. */
  function EffectiveThreshold(threshold: real): (r: real)
    ensures r != 0.0
    ensures threshold != 0.0 ==> r == threshold
    ensures threshold >= 0.0 ==> r > 0.0
  {
    if threshold == 0.0 then MaxAllowedDiffValue else threshold
  }

  /**
   * Lines 76-104. `stderr.match(...)` is nil when the text holds no digit,
   * and `nil.length` raises before anything is printed, so the branch that
   * would report the raw text (lines 97-99) is never reached. Otherwise the
   * leading number of the text is compared, strictly, with the effective
   * threshold.
   */
  function ProcessResult(imageFileName: string, stderr: string, threshold: real): (c: Classification)
    ensures c.result.Err? <==> !ContainsDigit(stderr)
    ensures c.result.Err? ==> c.result.error == UndefinedMethodOnNil && c.log == []
    ensures c.result.Ok? ==>
      (c.result.value <==> ToF(stderr) < (if threshold == 0.0 then MaxAllowedDiffValue else threshold))
    ensures c.result == Ok(true) ==> c.log == [StatusLine(Passed, AssertedSuccessfully(imageFileName))]
    ensures c.result == Ok(false) ==>
      && |c.log| == 2
      && c.log[0] == StatusLine(Failed, DiffTooLarge(EffectiveThreshold(threshold), ToF(stderr)))
      && c.log[1] == StatusLine(Failed, NotEqual(imageFileName))
  {
    MatchesNumberTokenIffDigit(stderr);
    if !MatchesNumberToken(stderr) then Classification(Err(UndefinedMethodOnNil), [])
    else
      var limit := EffectiveThreshold(threshold);
      var score := ToF(stderr);
      if score < limit then
        Classification(Ok(true), [StatusLine(Passed, AssertedSuccessfully(imageFileName))])
      else
        Classification(Ok(false), [StatusLine(Failed, DiffTooLarge(limit, score)), StatusLine(Failed, NotEqual(imageFileName))])
  }

  /** A threshold of 0 behaves exactly like `MAX_ALLOWED_DIFF_VALUE`, status lines included. */
  lemma ZeroThresholdIsDefault(imageFileName: string, stderr: string)
    ensures ProcessResult(imageFileName, stderr, 0.0) == ProcessResult(imageFileName, stderr, MaxAllowedDiffValue)
  {
  }

  /**
   * Output that starts with a whole-number score not continued by a
   * fraction, an exponent or an underscore (as "0 (0)" or "12 (0.19)")
   * passes exactly when that score is below the effective threshold, and
   * a pass prints only the success line.
   */
  lemma WholeScoreVerdict(imageFileName: string, whole: nat, rest: string, threshold: real)
    requires |rest| == 0 || !IsDigit(rest[0])
    requires |rest| == 0 || rest[0] !in {'e', 'E', '_'}
    requires |rest| < 2 || rest[0] != '.' || !IsDigit(rest[1])
    ensures var c := ProcessResult(imageFileName, ShowNat(whole) + rest, threshold);
      && c.result == Ok((whole as real) < EffectiveThreshold(threshold))
      && (c.result == Ok(true) ==> c.log == [StatusLine(Passed, AssertedSuccessfully(imageFileName))])
  {
    var s := ShowNat(whole) + rest;
    ToFShowNat(whole, rest);
    assert ContainsDigit(s) by { assert IsDigit(s[0]); }
  }

  /** A score equal to the effective threshold fails: the comparison is strict. */
  lemma ScoreAtThresholdFails(imageFileName: string, whole: nat, threshold: real)
    requires whole as real == EffectiveThreshold(threshold)
    ensures ProcessResult(imageFileName, ShowNat(whole), threshold).result == Ok(false)
  {
    WholeScoreVerdict(imageFileName, whole, [], threshold);
    assert ShowNat(whole) + [] == ShowNat(whole);
  }

  /**
   * Any output that mentions a digit but does not start with a number, as
   * "compare: unable to open image `foo2.png'", reads as 0.0 and passes
   * with the success line under any non-negative threshold.
   */
  lemma ErrorTextWithDigitPasses(imageFileName: string, stderr: string, threshold: real)
    requires threshold >= 0.0
    requires ContainsDigit(stderr)
    requires |stderr| > 0 && !IsSpace(stderr[0]) && !IsDigit(stderr[0])
    requires stderr[0] != '-' && stderr[0] != '+' && stderr[0] != '.'
    ensures ProcessResult(imageFileName, stderr, threshold)
      == Classification(Ok(true), [StatusLine(Passed, AssertedSuccessfully(imageFileName))])
  {
    ToFWithoutLeadingNumber(stderr);
  }

  /** The error text of a missing input file, naming `foo2.png`, passes. */
  lemma MissingFileErrorPasses(imageFileName: string, threshold: real)
    requires threshold >= 0.0
    ensures ProcessResult(imageFileName, "compare: unable to open image `foo2.png'", threshold).result == Ok(true)
  {
    var text := "compare: unable to open image `foo2.png'";
    assert IsDigit(text[34]);
    ErrorTextWithDigitPasses(imageFileName, text, threshold);
  }

  /** The scenario "threshold 2.5, compare reports 1.8": the assertion passes. */
  lemma ScoreBelowThresholdPasses(imageFileName: string)
    ensures ProcessResult(imageFileName, "1.8", 2.5).result == Ok(true)
  {
    ReadOneEight();
    assert IsDigit("1.8"[0]);
  }

  lemma ReadOneEight()
    ensures ToF("1.8") == 1.8
  {
    assert ShowNat(1) + "." + "8" + [] == "1.8" by {
      assert ShowNat(1) == "1";
    }
    assert FractionValue("8") == 0.8 by {
      assert DigitsValue("8") == 8 && Pow10(1) == 10;
    }
    ToFDecimal(1, "8", []);
  }
}

=== FILE: errors.dfy ===
/**
 * The Ruby exceptions this model raises from `ImageAssertion.assert_image`.
 * Others the program can raise are not modelled (see the README).
 */
module Errors {

  datatype RubyError =
    /** TypeError from `File.join(nil, ...)`: no run folder was found. */
    | NilPathError
    /** Errno::ENOENT from `FileUtils.cp`: the source file does not exist. */
    | NoSuchFile(path: string)
    /** Errno::EISDIR from `FileUtils.cp`: a directory where a regular file was expected. */
    | IsADirectory(path: string)
    /** ArgumentError from `FileUtils.cp`: source and destination are the same file. */
    | SameFile(path: string)
    /** Errno::EEXIST from `Dir.mkdir`: a regular file already has that name. */
    | FileExists(path: string)
    /** NoMethodError: `length` called on the `nil` a failed `match` returns. */
    | UndefinedMethodOnNil
}

=== FILE: files.dfy ===
/**
 * The filesystem as the assertion sees it: regular files with opaque
 * contents and a set of directories, and the three Ruby primitives it
 * uses on them, `Dir.mkdir` guarded by `File.directory?`, `FileUtils.cp`
 * into a directory, and an external program writing an output file.
 */
module Files {
  import opened Wrappers
  import opened Errors
  import opened Paths

  /** The bytes of an image file, never interpreted by the model. */
  datatype Image = Image(bytes: seq<int>)

  datatype FileSystem = FileSystem(files: map<string, Image>, dirs: set<string>)

  /** No path is both a regular file and a directory. */
  predicate Valid(fs: FileSystem) {
    fs.files.Keys !! fs.dirs
  }

  /** `File.exists?`: true for regular files and directories alike. */
  predicate Exists(fs: FileSystem, p: string) {
    p in fs.files || p in fs.dirs
  }

  /** What a program reading `p` gets: the contents of a regular file, or nothing. */
  function Read(fs: FileSystem, p: string): Option<Image> {
    if p in fs.files then Some(fs.files[p]) else None
  }

  /**
   * `Dir.mkdir(p) unless File.directory?(p)` (lines 17 and 25): a present
   * directory is left alone; a regular file of that name makes `mkdir`
   * raise.
   */
  function MakeDirUnlessPresent(fs: FileSystem, p: string): (r: Result<FileSystem, RubyError>)
    ensures r.Err? <==> p !in fs.dirs && p in fs.files
    ensures r.Err? ==> r.error == FileExists(p)
    ensures r.Ok? ==> p in r.value.dirs && r.value.files == fs.files
    ensures r.Ok? ==> forall d :: d in r.value.dirs <==> d in fs.dirs || d == p
    ensures p in fs.dirs ==> r == Ok(fs)
    ensures Valid(fs) && r.Ok? ==> Valid(r.value)
  {
    if p in fs.dirs then Ok(fs)
    else if p in fs.files then Err(FileExists(p))
    else Ok(fs.(dirs := fs.dirs + {p}))
  }

  /** Making a directory a second time changes nothing. */
  lemma MakeDirIdempotent(fs: FileSystem, p: string)
    requires MakeDirUnlessPresent(fs, p).Ok?
    ensures MakeDirUnlessPresent(MakeDirUnlessPresent(fs, p).value, p) == MakeDirUnlessPresent(fs, p)
  {
  }

  /** Making two folders does not make a different missing path exist. */
  lemma StillMissing(fs: FileSystem, a: string, b: string, p: string)
    requires !Exists(fs, p) && p != a && p != b
    ensures !Exists(fs.(dirs := fs.dirs + {a, b}), p)
  {
  }

  /** A path that was missing is still missing after adding some other file and some other folders. */
  lemma MissingUnlessAdded(fs: FileSystem, r: FileSystem, p: string, file: string, a: string, b: string)
    requires !Exists(fs, p) && p != file && p != a && p != b
    requires r.files.Keys == fs.files.Keys + {file} && r.dirs <= fs.dirs + {a, b}
    ensures !Exists(r, p)
  {
  }

  /** Where `FileUtils.cp(src, dest)` writes: into a directory `dest` under the source's basename. */
  function CopyTarget(fs: FileSystem, src: string, dest: string): string {
    if dest in fs.dirs then Join(dest, LastComponent(src)) else dest
  }

  /**
   * `FileUtils.cp(src, dest)` (line 29): the source must be a regular file,
   * the target must not be a directory nor the source itself; then the
   * target holds the source's contents and nothing else changes. The
   * same-file check comes first, as in `FileUtils`.
   */
  function Copy(fs: FileSystem, src: string, dest: string): (r: Result<FileSystem, RubyError>)
    ensures var target := CopyTarget(fs, src, dest);
      r.Ok? <==> src in fs.files && src !in fs.dirs && target !in fs.dirs && target != src
    ensures Exists(fs, src) && CopyTarget(fs, src, dest) == src ==> r == Err(SameFile(src))
    ensures src in fs.dirs && CopyTarget(fs, src, dest) != src ==> r == Err(IsADirectory(src))
    ensures !Exists(fs, src) ==> r == Err(NoSuchFile(src))
    ensures r.Ok? ==>
      var target := CopyTarget(fs, src, dest);
      && r.value.dirs == fs.dirs
      && r.value.files.Keys == fs.files.Keys + {target}
      && r.value.files[target] == fs.files[src]
      && forall q :: q in fs.files && q != target ==> r.value.files[q] == fs.files[q]
    ensures Valid(fs) && r.Ok? ==> Valid(r.value)
  {
    var target := CopyTarget(fs, src, dest);
    if Exists(fs, src) && target == src then Err(SameFile(src))
    else if src in fs.dirs then Err(IsADirectory(src))
    else if src !in fs.files then Err(NoSuchFile(src))
    else if target in fs.dirs then Err(IsADirectory(target))
    else Ok(fs.(files := fs.files[target := fs.files[src]]))
  }

  /**
   * An external program writing its output file `p`: when it produced an
   * image and `p` is not a directory, `p` holds that image; otherwise the
   * filesystem is untouched, so an older file at `p` survives.
   */
  function WriteOutput(fs: FileSystem, p: string, output: Option<Image>): (r: FileSystem)
    ensures r.dirs == fs.dirs
    ensures output.Some? && p !in fs.dirs ==> Read(r, p) == output
    ensures output.None? || p in fs.dirs ==> r == fs
    ensures forall q :: q != p ==> Read(r, q) == Read(fs, q)
    ensures forall q :: Exists(fs, q) ==> Exists(r, q)
    ensures Valid(fs) ==> Valid(r)
  {
    if output.Some? && p !in fs.dirs then fs.(files := fs.files[p := output.value]) else fs
  }
}

=== FILE: image_assertion.dfy ===
/**
 * `ImageAssertion.assert_image` (image_assertion.rb:11-55) over an abstract
 * filesystem. The ImageMagick programs `convert` and `compare` are
 * uninterpreted functions of the files they read; every call to them is
 * recorded, and so is every status line printed.
 */
module ImageAssertion {
  import opened Wrappers
  import opened Errors
  import opened RubyStrings
  import opened Paths
  import opened Files
  import opened RunLocator
  import opened Classifier

  /** What `compare -metric MAE` leaves behind: its stderr text and, possibly, a diff image. */
  datatype CompareOutput = CompareOutput(stderr: string, diff: Option<Image>)

  /**
   * The external programs. Each is given the contents of its input paths
   * (`None` for a path that is not a readable regular file): `convert`
   * flattens a mask over a source and may fail to produce anything;
   * `compare` reports on an expected and a received image.
   */
  datatype Tools = Tools(
    convert: (Option<Image>, Option<Image>) -> Option<Image>,
    compare: (Option<Image>, Option<Image>) -> CompareOutput)

  /** One run of an external program, with the paths it was given. */
  datatype Invocation =
    | Convert(source: string, mask: string, result: string)
    | Compare(expected: string, received: string, diff: string, output: string)

  /** `call` ran `compare` on these paths, whatever it printed. */
  predicate IsCompare(call: Invocation, expected: string, received: string, diff: string) {
    call.Compare? && call.expected == expected && call.received == received && call.diff == diff
  }

  /** The effect of one call of `assert_image`. */
  datatype Execution = Execution(
    outcome: Result<bool, RubyError>,
    fs: FileSystem,
    log: seq<StatusLine>,
    calls: seq<Invocation>)

  /**
   * `mask` (lines 59-61): `convert` flattens the mask over the source and
   * writes the result; a failure is silent and leaves the filesystem as it
   * was.
   */
  function Mask(fs: FileSystem, tools: Tools, maskPath: string, source: string, result: string): (r: FileSystem)
    ensures r.dirs == fs.dirs
    ensures forall q :: q != result ==> Read(r, q) == Read(fs, q)
    ensures var made := tools.convert(Read(fs, source), Read(fs, maskPath));
      made.Some? && result !in fs.dirs ==> Read(r, result) == made
    ensures forall q :: Exists(fs, q) ==> Exists(r, q)
    ensures Valid(fs) ==> Valid(r)
  {
    WriteOutput(fs, result, tools.convert(Read(fs, source), Read(fs, maskPath)))
  }

  /** The state reached after the captured image was copied, or the exception that stopped the way there. */
  datatype Prepared =
    | Ready(fs: FileSystem)
    | Raised(error: RubyError, fs: FileSystem)

  /** A file name without a separator keeps none after ".png" is appended. */
  lemma PngNameHasNoSeparator(imageName: string)
    requires '/' !in imageName
    ensures |imageName + ".png"| > 0 && '/' !in imageName + ".png"
  {
    assert forall i :: 0 <= i < 4 ==> ".png"[i] != '/';
  }

  /**
   * Lines 27-30: copy `<run>/<name>.png` from the latest run folder into
   * `screens_temp`; without a run folder `File.join` is given nil.
   */
  function CopyCapture(testOutput: string, imageName: string, fs: FileSystem, runFolders: seq<string>): (r: Result<FileSystem, RubyError>)
    ensures |runFolders| == 0 ==> r == Err(NilPathError)
    ensures r.Ok? ==> |runFolders| > 0 && r.value.dirs == fs.dirs && fs.files.Keys <= r.value.files.Keys
    ensures Valid(fs) && r.Ok? ==> Valid(r.value)
    ensures r.Ok? && TempDir(testOutput) in fs.dirs && '/' !in imageName ==>
      var source := Join(FindLastFolder(testOutput, runFolders).value, imageName + ".png");
      source in fs.files && Read(r.value, ReceivedCopy(testOutput, imageName)) == Some(fs.files[source])
  {
    match FindLastFolder(testOutput, runFolders)
    case None => Err(NilPathError)
    case Some(run) =>
      var source := Join(run, imageName + ".png");
      var r := Copy(fs, source, TempDir(testOutput));
      assert TempDir(testOutput) in fs.dirs && '/' !in imageName ==>
        CopyTarget(fs, source, TempDir(testOutput)) == ReceivedCopy(testOutput, imageName) by {
        if TempDir(testOutput) in fs.dirs && '/' !in imageName {
          PngNameHasNoSeparator(imageName);
          LastComponentOfJoin(run, imageName + ".png");
        }
      }
      r
  }

  /**
   * Lines 15-30: create `screens_diff` and `screens_temp` when missing,
   * then copy the captured image into `screens_temp`.
   */
  function Prepare(testOutput: string, refImagesPath: string, imageName: string,
                   fs: FileSystem, runFolders: seq<string>): (r: Prepared)
    ensures fs.dirs <= r.fs.dirs <= fs.dirs + {DiffDir(testOutput), TempDir(testOutput)}
    ensures fs.files.Keys <= r.fs.files.Keys
    ensures Valid(fs) ==> Valid(r.fs)
    ensures r.Ready? ==> DiffDir(testOutput) in r.fs.dirs && TempDir(testOutput) in r.fs.dirs
    ensures r.Ready? ==> |runFolders| > 0
    ensures DiffDir(testOutput) in fs.files && DiffDir(testOutput) !in fs.dirs ==>
      r == Raised(FileExists(DiffDir(testOutput)), fs)
    ensures
      && DiffDir(testOutput) !in fs.files && TempDir(testOutput) !in fs.files && |runFolders| == 0 ==>
      r.Raised? && r.error == NilPathError
  {
    match MakeDirUnlessPresent(fs, DiffDir(testOutput))
    case Err(e) => Raised(e, fs)
    case Ok(fs1) =>
      match MakeDirUnlessPresent(fs1, TempDir(testOutput))
      case Err(e) => Raised(e, fs1)
      case Ok(fs2) =>
        match CopyCapture(testOutput, imageName, fs2, runFolders)
        case Err(e) => Raised(e, fs2)
        case Ok(fs3) => Ready(fs3)
  }

  /**
   * After a successful preparation the received copy in `screens_temp`
   * holds the image of the latest run folder.
   */
  lemma CaptureIsCopied(testOutput: string, refImagesPath: string, imageName: string,
                        fs: FileSystem, runFolders: seq<string>)
    requires '/' !in imageName
    requires Prepare(testOutput, refImagesPath, imageName, fs, runFolders).Ready?
    ensures |runFolders| > 0
    ensures var source := Join(FindLastFolder(testOutput, runFolders).value, imageName + ".png");
      && source in fs.files
      && Read(Prepare(testOutput, refImagesPath, imageName, fs, runFolders).fs, ReceivedCopy(testOutput, imageName))
         == Some(fs.files[source])
  {
    var fs2 := MakeDirUnlessPresent(MakeDirUnlessPresent(fs, DiffDir(testOutput)).value, TempDir(testOutput)).value;
    assert CopyCapture(testOutput, imageName, fs2, runFolders).Ok?;
  }

  /** The two files handed to `compare`, with the filesystem and program runs that produced them. */
  datatype ComparedPair = ComparedPair(fs: FileSystem, expected: string, received: string, calls: seq<Invocation>)

  /**
   * Lines 34-42: when a mask exists, both images are masked into
   * `screens_temp` and the masked copies are compared; otherwise the
   * reference and the received copy are compared as they are.
   */
  function SelectPair(p: ResolvedPaths, fs: FileSystem, tools: Tools): (s: ComparedPair)
    ensures Exists(fs, p.mask) ==>
      && s.expected == p.maskedReference && s.received == p.maskedReceived
      && s.calls == [Convert(p.receivedCopy, p.mask, p.maskedReceived), Convert(p.refImage, p.mask, p.maskedReference)]
    ensures !Exists(fs, p.mask) ==> s == ComparedPair(fs, p.refImage, p.receivedCopy, [])
    ensures s.fs.dirs == fs.dirs && fs.files.Keys <= s.fs.files.Keys
    ensures OnlyConverts(s.calls)
    ensures forall q :: q != p.maskedReceived && q != p.maskedReference ==> Read(s.fs, q) == Read(fs, q)
    ensures Valid(fs) ==> Valid(s.fs)
  {
    if Exists(fs, p.mask) then
      var fs1 := Mask(fs, tools, p.mask, p.receivedCopy, p.maskedReceived);
      var fs2 := Mask(fs1, tools, p.mask, p.refImage, p.maskedReference);
      ComparedPair(fs2, p.maskedReference, p.maskedReceived,
        [Convert(p.receivedCopy, p.mask, p.maskedReceived), Convert(p.refImage, p.mask, p.maskedReference)])
    else
      ComparedPair(fs, p.refImage, p.receivedCopy, [])
  }

  /**
   * Lines 44-54: a missing file fails the assertion without running
   * `compare`; otherwise `compare` writes the diff image and its stderr
   * is classified.
   */
  function CompareStage(p: ResolvedPaths, pair: ComparedPair, tools: Tools, threshold: real): (x: Execution)
    ensures !Exists(pair.fs, pair.received) || !Exists(pair.fs, pair.expected) ==>
      x == Execution(Ok(false), pair.fs, [StatusLine(Failed, NotFound(p.imageFileName))], pair.calls)
    ensures Exists(pair.fs, pair.received) && Exists(pair.fs, pair.expected) ==>
      var out := tools.compare(Read(pair.fs, pair.expected), Read(pair.fs, pair.received));
      && x.calls == pair.calls + [Compare(pair.expected, pair.received, p.diffImage, out.stderr)]
      && (out.diff.Some? && p.diffImage !in pair.fs.dirs ==> Read(x.fs, p.diffImage) == out.diff)
      && (x.outcome.Err? <==> !ContainsDigit(out.stderr))
      && (x.outcome.Ok? ==> (x.outcome.value <==> ToF(out.stderr) < EffectiveThreshold(threshold)))
    ensures x.fs.dirs == pair.fs.dirs && pair.fs.files.Keys <= x.fs.files.Keys
    ensures Valid(pair.fs) ==> Valid(x.fs)
    ensures x.outcome.Ok? ==> |x.log| > 0 && x.log[|x.log| - 1].status == (if x.outcome.value then Passed else Failed)
    ensures OnlyConverts(pair.calls) ==> CompareComesLast(x.calls) && ClassifiedByCompare(x, threshold)
    ensures x.outcome != Ok(false) ==> |x.calls| > 0 && x.calls[|x.calls| - 1].Compare?
  {
    if !Exists(pair.fs, pair.received) || !Exists(pair.fs, pair.expected) then
      Execution(Ok(false), pair.fs, [StatusLine(Failed, NotFound(p.imageFileName))], pair.calls)
    else
      var out := tools.compare(Read(pair.fs, pair.expected), Read(pair.fs, pair.received));
      var c := ProcessResult(p.imageFileName, out.stderr, threshold);
      Execution(c.result, WriteOutput(pair.fs, p.diffImage, out.diff), c.log,
        pair.calls + [Compare(pair.expected, pair.received, p.diffImage, out.stderr)])
  }

  /** Every recorded call is `convert`. */
  predicate OnlyConverts(calls: seq<Invocation>) {
    forall i :: 0 <= i < |calls| ==> calls[i].Convert?
  }

  /** `compare` runs at most once, and only after every `convert`. */
  predicate CompareComesLast(calls: seq<Invocation>) {
    forall i :: 0 <= i < |calls| - 1 ==> calls[i].Convert?
  }

  /** The last recorded call is `compare`, and the outcome is its stderr classified against `threshold`. */
  predicate ClassifiedByCompare(x: Execution, threshold: real) {
    |x.calls| > 0 && x.calls[|x.calls| - 1].Compare? ==>
      var out := x.calls[|x.calls| - 1].output;
      && (x.outcome.Err? <==> !ContainsDigit(out))
      && (x.outcome.Ok? ==> (x.outcome.value <==> ToF(out) < EffectiveThreshold(threshold)))
  }

  /** A finished assertion's log ends with a line labelled as its verdict. */
  predicate LogEndsWithVerdict(x: Execution) {
    x.outcome.Ok? ==> |x.log| >= 2 && x.log[|x.log| - 1].status == (if x.outcome.value then Passed else Failed)
  }

  /** Lines 32-54, once the paths exist and the captured image is in place. */
  function Proceed(p: ResolvedPaths, fs: FileSystem, tools: Tools, threshold: real): (x: Execution)
    ensures Valid(fs) ==> Valid(x.fs)
    ensures x.fs.dirs == fs.dirs && fs.files.Keys <= x.fs.files.Keys
    ensures CompareComesLast(x.calls)
    ensures ClassifiedByCompare(x, threshold)
    ensures x.outcome != Ok(false) ==> |x.calls| > 0 && x.calls[|x.calls| - 1].Compare?
    ensures |x.log| > 0 && x.log[0] == StatusLine(Started, Asserting(p.imageFileName))
    ensures LogEndsWithVerdict(x)
  {
    var pair := SelectPair(p, fs, tools);
    var x := CompareStage(p, pair, tools, threshold);
    Execution(x.outcome, x.fs, [StatusLine(Started, Asserting(p.imageFileName))] + x.log, x.calls)
  }

  /** `assert_image` once all three arguments are present (lines 15-55). */
  function AssertGiven(testOutput: string, refImagesPath: string, imageName: string,
                       threshold: real, fs: FileSystem, runFolders: seq<string>, tools: Tools): (x: Execution)
    ensures Valid(fs) ==> Valid(x.fs)
    ensures fs.dirs <= x.fs.dirs <= fs.dirs + {DiffDir(testOutput), TempDir(testOutput)}
    ensures fs.files.Keys <= x.fs.files.Keys
    ensures CompareComesLast(x.calls)
    ensures ClassifiedByCompare(x, threshold)
    ensures x.outcome == Ok(true) ==> |x.calls| > 0 && x.calls[|x.calls| - 1].Compare?
    ensures x.outcome.Ok? || |x.calls| > 0 ==>
      |x.log| > 0 && x.log[0] == StatusLine(Started, Asserting(imageName + ".png"))
    ensures LogEndsWithVerdict(x)
  {
    match Prepare(testOutput, refImagesPath, imageName, fs, runFolders)
    case Raised(e, fs') => Execution(Err(e), fs', [], [])
    case Ready(fs') => Proceed(Resolve(testOutput, refImagesPath, imageName), fs', tools, threshold)
  }

  predicate AllGiven(testOutput: Option<string>, refImagesPath: Option<string>, imageName: Option<string>) {
    testOutput.Some? && refImagesPath.Some? && imageName.Some?
  }

  /**
   * `assert_image(test_output, ref_images_path, image_name, threshold)`.
   * `runFolders` is what `Dir.glob("<test_output>/Run*")` lists.
   */
  function AssertImage(testOutput: Option<string>, refImagesPath: Option<string>, imageName: Option<string>,
                       threshold: real, fs: FileSystem, runFolders: seq<string>, tools: Tools): (x: Execution)
    ensures !AllGiven(testOutput, refImagesPath, imageName) ==> x == Execution(Ok(false), fs, [], [])
    ensures Valid(fs) ==> Valid(x.fs)
    ensures fs.dirs <= x.fs.dirs && fs.files.Keys <= x.fs.files.Keys
    ensures AllGiven(testOutput, refImagesPath, imageName) ==>
      x.fs.dirs <= fs.dirs + {DiffDir(testOutput.value), TempDir(testOutput.value)}
    ensures CompareComesLast(x.calls)
    ensures ClassifiedByCompare(x, threshold)
    ensures x.outcome == Ok(true) ==>
      && |x.calls| > 0 && x.calls[|x.calls| - 1].Compare?
      && ContainsDigit(x.calls[|x.calls| - 1].output)
      && ToF(x.calls[|x.calls| - 1].output) < EffectiveThreshold(threshold)
    ensures AllGiven(testOutput, refImagesPath, imageName) && (x.outcome.Ok? || |x.calls| > 0) ==>
      |x.log| > 0 && x.log[0] == StatusLine(Started, Asserting(imageName.value + ".png"))
    ensures AllGiven(testOutput, refImagesPath, imageName) ==> LogEndsWithVerdict(x)
  {
    if !AllGiven(testOutput, refImagesPath, imageName) then Execution(Ok(false), fs, [], [])
    else AssertGiven(testOutput.value, refImagesPath.value, imageName.value, threshold, fs, runFolders, tools)
  }

  /** Making two directories that are not regular files adds exactly those two. */
  lemma MakeBothDirs(fs: FileSystem, a: string, b: string)
    requires a !in fs.files && b !in fs.files
    ensures MakeDirUnlessPresent(fs, a).Ok?
    ensures MakeDirUnlessPresent(MakeDirUnlessPresent(fs, a).value, b) == Ok(fs.(dirs := fs.dirs + {a, b}))
  {
    var fs1 := MakeDirUnlessPresent(fs, a).value;
    assert fs1 == fs.(dirs := fs.dirs + {a});
    var fs2 := MakeDirUnlessPresent(fs1, b).value;
    assert fs2 == fs1.(dirs := fs1.dirs + {b});
    assert fs1.dirs + {b} == fs.dirs + {a, b};
  }

  /**
   * "Create unless present" makes the two folders' prior existence
   * irrelevant: a run that finds them already made behaves exactly like
   * one that makes them.
   */
  lemma PreexistingFoldersChangeNothing(testOutput: string, refImagesPath: string, imageName: string,
                                        threshold: real, fs: FileSystem, runFolders: seq<string>, tools: Tools)
    requires DiffDir(testOutput) !in fs.files && TempDir(testOutput) !in fs.files
    ensures var made := fs.(dirs := fs.dirs + {DiffDir(testOutput), TempDir(testOutput)});
      AssertGiven(testOutput, refImagesPath, imageName, threshold, fs, runFolders, tools)
      == AssertGiven(testOutput, refImagesPath, imageName, threshold, made, runFolders, tools)
  {
    PrepareIgnoresMadeDirs(testOutput, refImagesPath, imageName, fs, runFolders);
  }

  lemma PrepareIgnoresMadeDirs(testOutput: string, refImagesPath: string, imageName: string,
                               fs: FileSystem, runFolders: seq<string>)
    requires DiffDir(testOutput) !in fs.files && TempDir(testOutput) !in fs.files
    ensures var made := fs.(dirs := fs.dirs + {DiffDir(testOutput), TempDir(testOutput)});
      Prepare(testOutput, refImagesPath, imageName, fs, runFolders)
      == Prepare(testOutput, refImagesPath, imageName, made, runFolders)
  {
    var made := fs.(dirs := fs.dirs + {DiffDir(testOutput), TempDir(testOutput)});
    MakeBothDirs(fs, DiffDir(testOutput), TempDir(testOutput));
    PrepareAfterDirs(testOutput, refImagesPath, imageName, fs, runFolders, made);
    assert MakeDirUnlessPresent(made, DiffDir(testOutput)) == Ok(made);
    assert MakeDirUnlessPresent(made, TempDir(testOutput)) == Ok(made);
    PrepareAfterDirs(testOutput, refImagesPath, imageName, made, runFolders, made);
  }

  /** Once both folders are made, only the copy of the capture decides the preparation. */
  lemma PrepareAfterDirs(testOutput: string, refImagesPath: string, imageName: string,
                         fs: FileSystem, runFolders: seq<string>, fs2: FileSystem)
    requires MakeDirUnlessPresent(fs, DiffDir(testOutput)).Ok?
    requires MakeDirUnlessPresent(MakeDirUnlessPresent(fs, DiffDir(testOutput)).value, TempDir(testOutput)) == Ok(fs2)
    ensures Prepare(testOutput, refImagesPath, imageName, fs, runFolders)
      == match CopyCapture(testOutput, imageName, fs2, runFolders)
         case Err(e) => Raised(e, fs2)
         case Ok(fs3) => Ready(fs3)
  {
  }

  /**
   * Without a run folder `File.join(nil, ...)` raises after both folders
   * were made: nothing is printed and no program runs.
   */
  lemma NoRunFolderRaises(testOutput: string, refImagesPath: string, imageName: string,
                          threshold: real, fs: FileSystem, tools: Tools)
    requires DiffDir(testOutput) !in fs.files && TempDir(testOutput) !in fs.files
    ensures AssertImage(Some(testOutput), Some(refImagesPath), Some(imageName), threshold, fs, [], tools)
      == Execution(Err(NilPathError), fs.(dirs := fs.dirs + {DiffDir(testOutput), TempDir(testOutput)}), [], [])
  {
    var made := fs.(dirs := fs.dirs + {DiffDir(testOutput), TempDir(testOutput)});
    assert Prepare(testOutput, refImagesPath, imageName, fs, []) == Raised(NilPathError, made) by {
      MakeBothDirs(fs, DiffDir(testOutput), TempDir(testOutput));
      assert CopyCapture(testOutput, imageName, made, []) == Err(NilPathError);
    }
    assert AssertGiven(testOutput, refImagesPath, imageName, threshold, fs, [], tools)
        == Execution(Err(NilPathError), made, [], []);
  }

  /**
   * A capture missing from the latest run folder makes `FileUtils.cp`
   * (line 29) raise `Errno::ENOENT` after both folders were made: the
   * not-found report of lines 44-48 is never reached, nothing is printed
   * and no program runs.
   */
  lemma MissingCaptureRaises(testOutput: string, refImagesPath: string, imageName: string,
                             threshold: real, fs: FileSystem, runFolders: seq<string>, tools: Tools)
    requires DiffDir(testOutput) !in fs.files && TempDir(testOutput) !in fs.files
    requires |runFolders| > 0
    requires !Exists(fs, Join(FindLastFolder(testOutput, runFolders).value, imageName + ".png"))
    ensures var source := Join(FindLastFolder(testOutput, runFolders).value, imageName + ".png");
      AssertGiven(testOutput, refImagesPath, imageName, threshold, fs, runFolders, tools)
      == Execution(Err(NoSuchFile(source)), fs.(dirs := fs.dirs + {DiffDir(testOutput), TempDir(testOutput)}), [], [])
  {
    PrepareMissingCapture(testOutput, refImagesPath, imageName, fs, runFolders);
  }

  lemma PrepareMissingCapture(testOutput: string, refImagesPath: string, imageName: string,
                              fs: FileSystem, runFolders: seq<string>)
    requires DiffDir(testOutput) !in fs.files && TempDir(testOutput) !in fs.files
    requires |runFolders| > 0
    requires !Exists(fs, Join(FindLastFolder(testOutput, runFolders).value, imageName + ".png"))
    ensures var source := Join(FindLastFolder(testOutput, runFolders).value, imageName + ".png");
      Prepare(testOutput, refImagesPath, imageName, fs, runFolders)
      == Raised(NoSuchFile(source), fs.(dirs := fs.dirs + {DiffDir(testOutput), TempDir(testOutput)}))
  {
    var made := fs.(dirs := fs.dirs + {DiffDir(testOutput), TempDir(testOutput)});
    var source := Join(FindLastFolder(testOutput, runFolders).value, imageName + ".png");
    PngIsNoLayoutFolder(testOutput, FindLastFolder(testOutput, runFolders).value, imageName);
    StillMissing(fs, DiffDir(testOutput), TempDir(testOutput), source);
    assert CopyCapture(testOutput, imageName, made, runFolders) == Err(NoSuchFile(source)) by {
      CopyMissingCapture(testOutput, imageName, made, runFolders);
    }
    MakeBothDirs(fs, DiffDir(testOutput), TempDir(testOutput));
    PrepareRaisesAtCopy(testOutput, refImagesPath, imageName, fs, runFolders, made, NoSuchFile(source));
  }

  /**
   * A name with a folder part, as "sub/x", departs from the evident intent:
   * `FileUtils.cp` (line 29) copies `<run>/sub/x.png` into `screens_temp`
   * under its basename `x.png`, while lines 30 and 44 look for
   * `screens_temp/sub/x.png`. Unless that file was there before, and when
   * no mask exists, the assertion fails with "not found" and `compare`
   * never runs.
   */
  lemma NestedNameIsNotFound(testOutput: string, refImagesPath: string, imageName: string,
                             threshold: real, fs: FileSystem, runFolders: seq<string>, tools: Tools)
    requires RelativeName(imageName) && '/' in imageName
    requires !Exists(fs, ReceivedCopy(testOutput, imageName))
    requires Prepare(testOutput, refImagesPath, imageName, fs, runFolders).Ready?
    requires !Exists(Prepare(testOutput, refImagesPath, imageName, fs, runFolders).fs, MaskPath(refImagesPath, imageName))
    ensures var file := imageName + ".png";
      AssertGiven(testOutput, refImagesPath, imageName, threshold, fs, runFolders, tools)
      == Execution(Ok(false), Prepare(testOutput, refImagesPath, imageName, fs, runFolders).fs,
                   [StatusLine(Started, Asserting(file)), StatusLine(Failed, NotFound(file))], [])
  {
    var w := Prepare(testOutput, refImagesPath, imageName, fs, runFolders);
    var p := Resolve(testOutput, refImagesPath, imageName);
    assert !Exists(w.fs, p.receivedCopy) by {
      NestedCopyIsMissing(testOutput, refImagesPath, imageName, fs, runFolders);
    }
    assert p.mask == MaskPath(refImagesPath, imageName) && p.imageFileName == imageName + ".png";
    ReadyProceeds(testOutput, refImagesPath, imageName, threshold, fs, runFolders, tools);
    ProceedWithoutMask(p, w.fs, tools, threshold);
  }

  lemma NestedCopyIsMissing(testOutput: string, refImagesPath: string, imageName: string,
                            fs: FileSystem, runFolders: seq<string>)
    requires RelativeName(imageName) && '/' in imageName
    requires !Exists(fs, ReceivedCopy(testOutput, imageName))
    requires Prepare(testOutput, refImagesPath, imageName, fs, runFolders).Ready?
    ensures !Exists(Prepare(testOutput, refImagesPath, imageName, fs, runFolders).fs, ReceivedCopy(testOutput, imageName))
  {
    var target := PreparedFiles(testOutput, refImagesPath, imageName, fs, runFolders);
    NestedNameMissesCopy(testOutput, FindLastFolder(testOutput, runFolders).value, imageName);
    assert ReceivedCopy(testOutput, imageName) == Join(TempDir(testOutput), imageName + ".png");
    PngIsNoLayoutFolder(testOutput, TempDir(testOutput), imageName);
    MissingUnlessAdded(fs, Prepare(testOutput, refImagesPath, imageName, fs, runFolders).fs,
                       ReceivedCopy(testOutput, imageName), target, DiffDir(testOutput), TempDir(testOutput));
  }

  /** A successful preparation adds exactly one file: the capture, under its basename in `screens_temp`. */
  lemma PreparedFiles(testOutput: string, refImagesPath: string, imageName: string,
                      fs: FileSystem, runFolders: seq<string>) returns (target: string)
    requires Prepare(testOutput, refImagesPath, imageName, fs, runFolders).Ready?
    ensures |runFolders| > 0
    ensures target == Join(TempDir(testOutput), LastComponent(Join(FindLastFolder(testOutput, runFolders).value, imageName + ".png")))
    ensures Prepare(testOutput, refImagesPath, imageName, fs, runFolders).fs.files.Keys == fs.files.Keys + {target}
  {
    var fs2 := MakeDirUnlessPresent(MakeDirUnlessPresent(fs, DiffDir(testOutput)).value, TempDir(testOutput)).value;
    assert CopyCapture(testOutput, imageName, fs2, runFolders).Ok?;
    var source := Join(FindLastFolder(testOutput, runFolders).value, imageName + ".png");
    target := Join(TempDir(testOutput), LastComponent(source));
    assert CopyTarget(fs2, source, TempDir(testOutput)) == target;
  }

  /** Once both folders are made, a failing copy is what the preparation raises. */
  lemma PrepareRaisesAtCopy(testOutput: string, refImagesPath: string, imageName: string,
                            fs: FileSystem, runFolders: seq<string>, fs2: FileSystem, e: RubyError)
    requires MakeDirUnlessPresent(fs, DiffDir(testOutput)).Ok?
    requires MakeDirUnlessPresent(MakeDirUnlessPresent(fs, DiffDir(testOutput)).value, TempDir(testOutput)) == Ok(fs2)
    requires CopyCapture(testOutput, imageName, fs2, runFolders) == Err(e)
    ensures Prepare(testOutput, refImagesPath, imageName, fs, runFolders) == Raised(e, fs2)
  {
  }

  lemma CopyMissingCapture(testOutput: string, imageName: string, fs: FileSystem, runFolders: seq<string>)
    requires |runFolders| > 0
    requires !Exists(fs, Join(FindLastFolder(testOutput, runFolders).value, imageName + ".png"))
    ensures CopyCapture(testOutput, imageName, fs, runFolders)
      == Err(NoSuchFile(Join(FindLastFolder(testOutput, runFolders).value, imageName + ".png")))
  {
  }

  /** Once prepared, the assertion goes on from the resolved paths and the prepared filesystem. */
  lemma ReadyProceeds(testOutput: string, refImagesPath: string, imageName: string,
                      threshold: real, fs: FileSystem, runFolders: seq<string>, tools: Tools)
    requires Prepare(testOutput, refImagesPath, imageName, fs, runFolders).Ready?
    ensures AssertGiven(testOutput, refImagesPath, imageName, threshold, fs, runFolders, tools)
      == Proceed(Resolve(testOutput, refImagesPath, imageName),
                 Prepare(testOutput, refImagesPath, imageName, fs, runFolders).fs, tools, threshold)
  {
  }

  /**
   * With a mask (lines 34-38) both images are masked into `screens_temp`
   * first, and `compare` sees the two masked copies and writes the diff
   * into `screens_diff`.
   */
  lemma MaskedCopiesAreCompared(testOutput: string, refImagesPath: string, imageName: string,
                                threshold: real, fs: FileSystem, runFolders: seq<string>, tools: Tools)
    requires Prepare(testOutput, refImagesPath, imageName, fs, runFolders).Ready?
    requires Exists(Prepare(testOutput, refImagesPath, imageName, fs, runFolders).fs, MaskPath(refImagesPath, imageName))
    ensures var x := AssertGiven(testOutput, refImagesPath, imageName, threshold, fs, runFolders, tools);
      var mask := MaskPath(refImagesPath, imageName);
      var received := MaskedReceived(testOutput, imageName);
      var expected := MaskedReference(testOutput, imageName);
      && 2 <= |x.calls| <= 3
      && x.calls[0] == Convert(ReceivedCopy(testOutput, imageName), mask, received)
      && x.calls[1] == Convert(RefImage(refImagesPath, imageName), mask, expected)
      && (|x.calls| == 3 ==> IsCompare(x.calls[2], expected, received, DiffImage(testOutput, imageName)))
  {
    var p := Resolve(testOutput, refImagesPath, imageName);
    var x := AssertGiven(testOutput, refImagesPath, imageName, threshold, fs, runFolders, tools);
    assert x == Proceed(p, Prepare(testOutput, refImagesPath, imageName, fs, runFolders).fs, tools, threshold) by {
      ReadyProceeds(testOutput, refImagesPath, imageName, threshold, fs, runFolders, tools);
    }
    ProceedWithMask(p, Prepare(testOutput, refImagesPath, imageName, fs, runFolders).fs, tools, threshold);
    assert p.maskedReference == MaskedReference(testOutput, imageName);
    assert p.maskedReceived == MaskedReceived(testOutput, imageName);
    assert p.diffImage == DiffImage(testOutput, imageName);
  }

  lemma ProceedWithMask(p: ResolvedPaths, fs: FileSystem, tools: Tools, threshold: real)
    requires Exists(fs, p.mask)
    ensures var x := Proceed(p, fs, tools, threshold);
      && 2 <= |x.calls| <= 3
      && x.calls[0] == Convert(p.receivedCopy, p.mask, p.maskedReceived)
      && x.calls[1] == Convert(p.refImage, p.mask, p.maskedReference)
      && (|x.calls| == 3 ==> IsCompare(x.calls[2], p.maskedReference, p.maskedReceived, p.diffImage))
  {
    var pair := SelectPair(p, fs, tools);
    assert pair.calls == [Convert(p.receivedCopy, p.mask, p.maskedReceived), Convert(p.refImage, p.mask, p.maskedReference)];
  }

  lemma ProceedWithoutMask(p: ResolvedPaths, fs: FileSystem, tools: Tools, threshold: real)
    requires !Exists(fs, p.mask)
    ensures var x := Proceed(p, fs, tools, threshold);
      && |x.calls| <= 1
      && (|x.calls| == 1 ==> IsCompare(x.calls[0], p.refImage, p.receivedCopy, p.diffImage))
      && (!Exists(fs, p.refImage) || !Exists(fs, p.receivedCopy) ==>
            x == Execution(Ok(false), fs, [StatusLine(Started, Asserting(p.imageFileName)), StatusLine(Failed, NotFound(p.imageFileName))], []))
  {
    assert SelectPair(p, fs, tools) == ComparedPair(fs, p.refImage, p.receivedCopy, []);
  }

  /**
   * Without a mask (lines 40-41) nothing is converted, and `compare`, if
   * it runs, sees the reference and the copied capture themselves.
   */
  lemma OriginalsAreComparedWithoutMask(testOutput: string, refImagesPath: string, imageName: string,
                                        threshold: real, fs: FileSystem, runFolders: seq<string>, tools: Tools)
    requires Prepare(testOutput, refImagesPath, imageName, fs, runFolders).Ready?
    requires !Exists(Prepare(testOutput, refImagesPath, imageName, fs, runFolders).fs, MaskPath(refImagesPath, imageName))
    ensures var x := AssertGiven(testOutput, refImagesPath, imageName, threshold, fs, runFolders, tools);
      && |x.calls| <= 1
      && (|x.calls| == 1 ==>
            IsCompare(x.calls[0], RefImage(refImagesPath, imageName), ReceivedCopy(testOutput, imageName),
                      DiffImage(testOutput, imageName)))
  {
    ReadyProceeds(testOutput, refImagesPath, imageName, threshold, fs, runFolders, tools);
    ProceedWithoutMask(Resolve(testOutput, refImagesPath, imageName),
                       Prepare(testOutput, refImagesPath, imageName, fs, runFolders).fs, tools, threshold);
  }

  /**
   * Lines 44-48: when the reference is missing and no mask exists, the
   * assertion fails with "not found" and `compare` never runs.
   */
  lemma MissingReferenceFailsWithoutCompare(testOutput: string, refImagesPath: string, imageName: string,
                                            threshold: real, fs: FileSystem, runFolders: seq<string>, tools: Tools)
    requires Prepare(testOutput, refImagesPath, imageName, fs, runFolders).Ready?
    requires var w := Prepare(testOutput, refImagesPath, imageName, fs, runFolders);
      !Exists(w.fs, MaskPath(refImagesPath, imageName)) && !Exists(w.fs, RefImage(refImagesPath, imageName))
    ensures var file := imageName + ".png";
      AssertGiven(testOutput, refImagesPath, imageName, threshold, fs, runFolders, tools)
      == Execution(Ok(false), Prepare(testOutput, refImagesPath, imageName, fs, runFolders).fs,
                   [StatusLine(Started, Asserting(file)), StatusLine(Failed, NotFound(file))], [])
  {
    ReadyProceeds(testOutput, refImagesPath, imageName, threshold, fs, runFolders, tools);
    ProceedWithoutMask(Resolve(testOutput, refImagesPath, imageName),
                       Prepare(testOutput, refImagesPath, imageName, fs, runFolders).fs, tools, threshold);
  }

  /**
   * The usual success: `compare` reports a whole-number score (as
   * "0 (0)" for identical images) below the effective threshold, so the
   * assertion passes.
   */
  lemma WholeScoreBelowThresholdPasses(testOutput: string, refImagesPath: string, imageName: string,
                                       threshold: real, fs: FileSystem, runFolders: seq<string>, tools: Tools,
                                       score: nat, rest: string)
    requires '/' !in imageName
    requires Prepare(testOutput, refImagesPath, imageName, fs, runFolders).Ready?
    requires var w := Prepare(testOutput, refImagesPath, imageName, fs, runFolders);
      && !Exists(w.fs, MaskPath(refImagesPath, imageName))
      && Exists(w.fs, RefImage(refImagesPath, imageName))
      && tools.compare(Read(w.fs, RefImage(refImagesPath, imageName)), Read(w.fs, ReceivedCopy(testOutput, imageName))).stderr
         == ShowNat(score) + rest
    requires |rest| == 0 || !IsDigit(rest[0])
    requires |rest| == 0 || rest[0] !in {'e', 'E', '_'}
    requires |rest| < 2 || rest[0] != '.' || !IsDigit(rest[1])
    requires (score as real) < EffectiveThreshold(threshold)
    ensures var x := AssertGiven(testOutput, refImagesPath, imageName, threshold, fs, runFolders, tools);
      && x.outcome == Ok(true)
      && x.log == [StatusLine(Started, Asserting(imageName + ".png")), StatusLine(Passed, AssertedSuccessfully(imageName + ".png"))]
  {
    var w := Prepare(testOutput, refImagesPath, imageName, fs, runFolders);
    var p := Resolve(testOutput, refImagesPath, imageName);
    assert Exists(w.fs, p.receivedCopy) by {
      CaptureIsCopied(testOutput, refImagesPath, imageName, fs, runFolders);
    }
    assert p.mask == MaskPath(refImagesPath, imageName) && p.refImage == RefImage(refImagesPath, imageName);
    assert p.receivedCopy == ReceivedCopy(testOutput, imageName) && p.imageFileName == imageName + ".png";
    ProceedPassesOnWholeScore(p, w.fs, tools, threshold, score, rest);
    ReadyProceeds(testOutput, refImagesPath, imageName, threshold, fs, runFolders, tools);
  }

  lemma ProceedPassesOnWholeScore(p: ResolvedPaths, fs: FileSystem, tools: Tools, threshold: real, score: nat, rest: string)
    requires !Exists(fs, p.mask) && Exists(fs, p.refImage) && Exists(fs, p.receivedCopy)
    requires tools.compare(Read(fs, p.refImage), Read(fs, p.receivedCopy)).stderr == ShowNat(score) + rest
    requires |rest| == 0 || !IsDigit(rest[0])
    requires |rest| == 0 || rest[0] !in {'e', 'E', '_'}
    requires |rest| < 2 || rest[0] != '.' || !IsDigit(rest[1])
    requires (score as real) < EffectiveThreshold(threshold)
    ensures var x := Proceed(p, fs, tools, threshold);
      && x.outcome == Ok(true)
      && x.log == [StatusLine(Started, Asserting(p.imageFileName)), StatusLine(Passed, AssertedSuccessfully(p.imageFileName))]
  {
    var file := p.imageFileName;
    var c := ProcessResult(file, ShowNat(score) + rest, threshold);
    assert c == Classification(Ok(true), [StatusLine(Passed, AssertedSuccessfully(file))]) by {
      WholeScoreVerdict(file, score, rest, threshold);
    }
    ProceedClassifies(p, fs, tools, threshold);
    StartedThenPassed(Proceed(p, fs, tools, threshold), file, c);
  }

  /** An execution that reports a passing classification after the started line. */
  lemma StartedThenPassed(x: Execution, file: string, c: Classification)
    requires c == Classification(Ok(true), [StatusLine(Passed, AssertedSuccessfully(file))])
    requires x.outcome == c.result && x.log == [StatusLine(Started, Asserting(file))] + c.log
    ensures x.outcome == Ok(true)
    ensures x.log == [StatusLine(Started, Asserting(file)), StatusLine(Passed, AssertedSuccessfully(file))]
  {
  }

  lemma ProceedClassifies(p: ResolvedPaths, fs: FileSystem, tools: Tools, threshold: real)
    requires !Exists(fs, p.mask) && Exists(fs, p.refImage) && Exists(fs, p.receivedCopy)
    ensures var stderr := tools.compare(Read(fs, p.refImage), Read(fs, p.receivedCopy)).stderr;
      var c := ProcessResult(p.imageFileName, stderr, threshold);
      var x := Proceed(p, fs, tools, threshold);
      x.outcome == c.result && x.log == [StatusLine(Started, Asserting(p.imageFileName))] + c.log
  {
    assert SelectPair(p, fs, tools) == ComparedPair(fs, p.refImage, p.receivedCopy, []);
  }
}

=== FILE: paths.dfy ===
/**
 * Ruby's `File.join` and `File.basename` on '/'-separated paths, and the
 * fixed layout of folders and file names the assertion reads and writes.
 */
module Paths {

  const DiffImageFolderName := "screens_diff"
  const TempImageFolderName := "screens_temp"
  const MasksFolderName := "masks"

  predicate EndsWith(s: string, suffix: string) {
    |suffix| <= |s| && s[|s| - |suffix|..] == suffix
  }

  /** A directory written without a trailing separator. */
  predicate PlainDirectory(d: string) {
    |d| > 0 && d[|d| - 1] != '/'
  }

  /** A name that does not start with a separator. */
  predicate RelativeName(n: string) {
    |n| == 0 || n[0] != '/'
  }

  /** Removes the run of separators at the end of `s`. */
  function ChompSeparators(s: string): (r: string)
    ensures r <= s
    ensures |r| == 0 || r[|r| - 1] != '/'
    ensures forall i :: |r| <= i < |s| ==> s[i] == '/'
  {
    if |s| > 0 && s[|s| - 1] == '/' then ChompSeparators(s[..|s| - 1]) else s
  }

  /**
   * `File.join(a, b)`: when `b` starts with a separator the separators
   * ending `a` are dropped; otherwise a '/' is inserted unless `a`
   * already ends with one. Either way `b` is kept whole and only
   * separators stand between `a` and `b`.
   */
  function Join(a: string, b: string): (r: string)
    ensures EndsWith(r, b)
    ensures ChompSeparators(r[..|r| - |b|]) == ChompSeparators(a)
    ensures RelativeName(b) ==> |r| > |b| && r[|r| - |b| - 1] == '/'
    ensures |r| <= |a| + 1 + |b|
    ensures |b| > 0 && b[0] == '/' ==> r == ChompSeparators(a) + b
    ensures RelativeName(b) && |a| > 0 && a[|a| - 1] == '/' ==> r == a + b
  {
    var p := JoinPrefix(a, b);
    JoinShape(p, a, b);
    p + b
  }

  /** What `File.join` puts before `b`: `a` with its ending separators adjusted. */
  function JoinPrefix(a: string, b: string): (p: string)
    ensures ChompSeparators(p) == ChompSeparators(a) && |p| <= |a| + 1
    ensures RelativeName(b) ==> |p| > 0 && p[|p| - 1] == '/'
  {
    if |b| > 0 && b[0] == '/' then
      ChompTwice(a);
      ChompSeparators(a)
    else if |a| > 0 && a[|a| - 1] == '/' then
      a
    else
      ChompAfterSeparator(a);
      a + "/"
  }

  lemma ChompTwice(a: string)
    ensures ChompSeparators(ChompSeparators(a)) == ChompSeparators(a)
  {
  }

  lemma ChompAfterSeparator(a: string)
    ensures ChompSeparators(a + "/") == ChompSeparators(a)
  {
    assert (a + "/")[..|a|] == a;
  }

  /**
   * What `Join` promises, for a result made of a prefix `p` and then `b`,
   * where `p` is `a` with its ending separators changed.
   */
  lemma JoinShape(p: string, a: string, b: string)
    requires ChompSeparators(p) == ChompSeparators(a) && |p| <= |a| + 1
    requires RelativeName(b) ==> |p| > 0 && p[|p| - 1] == '/'
    ensures var r := p + b;
      && EndsWith(r, b)
      && ChompSeparators(r[..|r| - |b|]) == ChompSeparators(a)
      && (RelativeName(b) ==> |r| > |b| && r[|r| - |b| - 1] == '/')
      && |r| <= |a| + 1 + |b|
  {
    var r := p + b;
    assert r[..|p|] == p && r[|p|..] == b;
  }

  /**
   * `File.basename(p)` for a path that does not end in a separator: the
   * text after the last '/', or all of `p` when it has none.
   */
  function LastComponent(p: string): (r: string)
    ensures EndsWith(p, r)
    ensures '/' !in r
    ensures |r| < |p| ==> p[|p| - |r| - 1] == '/'
  {
    if |p| == 0 || p[|p| - 1] == '/' then []
    else
      var r := LastComponent(p[..|p| - 1]) + [p[|p| - 1]];
      assert p[..|p| - 1][|p| - |r|..] == p[|p| - |r|..|p| - 1];
      r
  }

  /** Joining a plain directory and a relative name puts exactly one '/' between them. */
  lemma JoinPlain(a: string, b: string)
    requires PlainDirectory(a) && RelativeName(b)
    ensures Join(a, b) == a + "/" + b
  {
  }

  /** The basename of a joined path is the joined name, when that name has no separator. */
  lemma LastComponentOfJoin(dir: string, name: string)
    requires |name| > 0 && '/' !in name
    ensures LastComponent(Join(dir, name)) == name
  {
    var p := Join(dir, name);
    var r := LastComponent(p);
    assert r == p[|p| - |r|..];
  }

  /** A sub-folder of a plain directory. */
  lemma FolderJoin(a: string, folder: string, tail: string)
    requires RelativeName(folder)
    requires tail == "/" + folder
    ensures PlainDirectory(a) ==> Join(a, folder) == a + tail
  {
    if PlainDirectory(a) {
      JoinPlain(a, folder);
      AppendEnding(a, "/", folder);
    }
  }

  /** A name followed by an ending that does not start with '/' is relative when the name is. */
  lemma RelativeWithEnding(name: string, ending: string)
    requires |ending| > 0 && ending[0] != '/'
    ensures RelativeName(name) ==> RelativeName(name + ending)
  {
    if |name| == 0 {
      assert name + ending == ending;
    } else {
      assert (name + ending)[0] == name[0];
    }
  }

  /** A file named `name + ending` inside a plain directory. */
  lemma FileJoin(a: string, name: string, ending: string)
    requires |ending| > 0 && ending[0] != '/'
    ensures PlainDirectory(a) && RelativeName(name) ==> Join(a, name + ending) == a + "/" + name + ending
  {
    if PlainDirectory(a) && RelativeName(name) {
      RelativeWithEnding(name, ending);
      JoinPlain(a, name + ending);
    }
  }

  /** A file named `name + ending` inside a sub-folder of a plain directory. */
  lemma NestedJoin(a: string, folder: string, middle: string, name: string, ending: string)
    requires PlainDirectory(folder) && RelativeName(folder)
    requires middle == "/" + folder + "/"
    requires |ending| > 0 && ending[0] != '/'
    ensures PlainDirectory(a) && RelativeName(name) ==>
      Join(Join(a, folder), name + ending) == a + middle + name + ending
  {
    if PlainDirectory(a) && RelativeName(name) {
      var d := a + "/" + folder;
      assert Join(a, folder) == d by { JoinPlain(a, folder); }
      assert PlainDirectory(d) by { assert d[|d| - 1] == folder[|folder| - 1]; }
      assert Join(d, name + ending) == d + "/" + name + ending by { FileJoin(d, name, ending); }
      Regroup(a, "/", folder, name + ending);
      assert d + "/" + name + ending == d + "/" + (name + ending);
    }
  }

  lemma Regroup(a: string, sep: string, folder: string, file: string)
    ensures a + sep + folder + sep + file == a + (sep + folder + sep) + file
  {
  }

  lemma LayoutLiterals()
    ensures "/" + DiffImageFolderName == "/screens_diff"
    ensures "/" + TempImageFolderName == "/screens_temp"
    ensures "/" + MasksFolderName == "/masks"
    ensures "/" + DiffImageFolderName + "/" == "/screens_diff/"
    ensures "/" + TempImageFolderName + "/" == "/screens_temp/"
    ensures "/" + MasksFolderName + "/" == "/masks/"
  {
  }

  /** `diff_images_path` (line 15): `<test_output>/screens_diff`. */
  function DiffDir(testOutput: string): (d: string)
    ensures EndsWith(d, DiffImageFolderName)
    ensures PlainDirectory(testOutput) ==> d == testOutput + "/screens_diff"
  {
    LayoutLiterals();
    FolderJoin(testOutput, DiffImageFolderName, "/screens_diff");
    Join(testOutput, DiffImageFolderName)
  }

  /** `temp_images_path` (line 22): `<test_output>/screens_temp`. */
  function TempDir(testOutput: string): (d: string)
    ensures EndsWith(d, TempImageFolderName)
    ensures PlainDirectory(testOutput) ==> d == testOutput + "/screens_temp"
  {
    LayoutLiterals();
    FolderJoin(testOutput, TempImageFolderName, "/screens_temp");
    Join(testOutput, TempImageFolderName)
  }

  /** `ref_masks_path` (line 16): `<ref>/masks`. */
  function RefMasksDir(refImagesPath: string): (d: string)
    ensures EndsWith(d, MasksFolderName)
    ensures PlainDirectory(refImagesPath) ==> d == refImagesPath + "/masks"
  {
    LayoutLiterals();
    FolderJoin(refImagesPath, MasksFolderName, "/masks");
    Join(refImagesPath, MasksFolderName)
  }

  /** `ref_image_path` (line 20): `<ref>/<name>.png`. */
  function RefImage(refImagesPath: string, imageName: string): (f: string)
    ensures EndsWith(f, imageName + ".png")
    ensures PlainDirectory(refImagesPath) && RelativeName(imageName) ==>
      f == refImagesPath + "/" + imageName + ".png"
  {
    FileJoin(refImagesPath, imageName, ".png");
    Join(refImagesPath, imageName + ".png")
  }

  /** `mask_path` (line 21): `<ref>/masks/<name>_mask.png`. */
  function MaskPath(refImagesPath: string, imageName: string): (f: string)
    ensures EndsWith(f, imageName + "_mask.png")
    ensures PlainDirectory(refImagesPath) && RelativeName(imageName) ==>
      f == refImagesPath + "/masks/" + imageName + "_mask.png"
  {
    LayoutLiterals();
    NestedJoin(refImagesPath, MasksFolderName, "/masks/", imageName, "_mask.png");
    Join(RefMasksDir(refImagesPath), imageName + "_mask.png")
  }

  /** `diff_path` (line 23): `<test_output>/screens_diff/<name>.png`. */
  function DiffImage(testOutput: string, imageName: string): (f: string)
    ensures EndsWith(f, imageName + ".png")
    ensures PlainDirectory(testOutput) && RelativeName(imageName) ==>
      f == testOutput + "/screens_diff/" + imageName + ".png"
  {
    LayoutLiterals();
    NestedJoin(testOutput, DiffImageFolderName, "/screens_diff/", imageName, ".png");
    Join(DiffDir(testOutput), imageName + ".png")
  }

  /**
   * A file directly inside `screens_temp`: `File.join(temp_images_path, file)`
   * (lines 30, 35 and 37).
   */
  function TempFile(testOutput: string, fileName: string): (f: string)
    ensures EndsWith(f, fileName)
    ensures PlainDirectory(testOutput) && RelativeName(fileName) ==>
      f == testOutput + "/screens_temp/" + fileName
  {
    var d := TempDir(testOutput);
    assert PlainDirectory(testOutput) && RelativeName(fileName) ==>
      Join(d, fileName) == testOutput + "/screens_temp/" + fileName by {
      if PlainDirectory(testOutput) && RelativeName(fileName) {
        assert PlainDirectory(d) by { assert d[|d| - 1] == 'p'; }
        JoinPlain(d, fileName);
        Regroup(testOutput, "/", TempImageFolderName, fileName);
        LayoutLiterals();
      }
    }
    Join(d, fileName)
  }

  /** A name with an ending stays one file name: `dir + (name + ending)` regrouped. */
  lemma AppendEnding(dir: string, name: string, ending: string)
    ensures dir + (name + ending) == dir + name + ending
  {
  }

  /** `received_instrument_path` (line 30): `<test_output>/screens_temp/<name>.png`. */
  function ReceivedCopy(testOutput: string, imageName: string): (f: string)
    ensures EndsWith(f, imageName + ".png")
    ensures PlainDirectory(testOutput) && RelativeName(imageName) ==>
      f == testOutput + "/screens_temp/" + imageName + ".png"
  {
    RelativeWithEnding(imageName, ".png");
    AppendEnding(testOutput + "/screens_temp/", imageName, ".png");
    TempFile(testOutput, imageName + ".png")
  }

  /** The masked candidate (line 35): `<test_output>/screens_temp/<name>_masked.png`. */
  function MaskedReceived(testOutput: string, imageName: string): (f: string)
    ensures EndsWith(f, imageName + "_masked.png")
    ensures PlainDirectory(testOutput) && RelativeName(imageName) ==>
      f == testOutput + "/screens_temp/" + imageName + "_masked.png"
  {
    RelativeWithEnding(imageName, "_masked.png");
    AppendEnding(testOutput + "/screens_temp/", imageName, "_masked.png");
    TempFile(testOutput, imageName + "_masked.png")
  }

  /** The masked reference (line 37): `<test_output>/screens_temp/<name>_ref_masked.png`. */
  function MaskedReference(testOutput: string, imageName: string): (f: string)
    ensures EndsWith(f, imageName + "_ref_masked.png")
    ensures PlainDirectory(testOutput) && RelativeName(imageName) ==>
      f == testOutput + "/screens_temp/" + imageName + "_ref_masked.png"
  {
    RelativeWithEnding(imageName, "_ref_masked.png");
    AppendEnding(testOutput + "/screens_temp/", imageName, "_ref_masked.png");
    TempFile(testOutput, imageName + "_ref_masked.png")
  }

  /** A `.png` file is neither of the two folders the assertion creates: the last characters differ. */
  lemma PngIsNoLayoutFolder(testOutput: string, dir: string, imageName: string)
    ensures Join(dir, imageName + ".png") != DiffDir(testOutput)
    ensures Join(dir, imageName + ".png") != TempDir(testOutput)
  {
    var f := Join(dir, imageName + ".png");
    var name := imageName + ".png";
    assert f[|f| - 1] == name[|name| - 1] == 'g';
    var d := DiffDir(testOutput);
    assert d[|d| - 1] == DiffImageFolderName[|DiffImageFolderName| - 1] == 'f';
    var t := TempDir(testOutput);
    assert t[|t| - 1] == TempImageFolderName[|TempImageFolderName| - 1] == 'p';
  }

  /**
   * The copy and the two masked files differ in length, and the diff and the
   * copy differ in the folder they sit in, whatever the output folder and
   * the name (a trailing '/' on the folder or a leading '/' on the name
   * included).
   */
  lemma TempOutputsDistinct(testOutput: string, imageName: string)
    ensures ReceivedCopy(testOutput, imageName) != MaskedReceived(testOutput, imageName)
    ensures ReceivedCopy(testOutput, imageName) != MaskedReference(testOutput, imageName)
    ensures MaskedReceived(testOutput, imageName) != MaskedReference(testOutput, imageName)
    ensures DiffImage(testOutput, imageName) != ReceivedCopy(testOutput, imageName)
  {
    TempOutputLengths(testOutput, imageName);
    var d := DiffDir(testOutput);
    var t := TempDir(testOutput);
    LayoutFoldersAlign(testOutput);
    var f := imageName + ".png";
    JoinKeepsPlainDirectory(d, f);
    JoinKeepsPlainDirectory(t, f);
    assert DiffImage(testOutput, imageName)[|d| - 1] == 'f';
    assert ReceivedCopy(testOutput, imageName)[|t| - 1] == 'p';
  }

  /** `screens_diff` and `screens_temp` are plain folders of equal length, ending in 'f' and 'p'. */
  lemma LayoutFoldersAlign(testOutput: string)
    ensures PlainDirectory(DiffDir(testOutput)) && PlainDirectory(TempDir(testOutput))
    ensures |DiffDir(testOutput)| == |TempDir(testOutput)|
    ensures DiffDir(testOutput)[|DiffDir(testOutput)| - 1] == 'f'
    ensures TempDir(testOutput)[|TempDir(testOutput)| - 1] == 'p'
  {
    var d := DiffDir(testOutput);
    var t := TempDir(testOutput);
    assert d[|d| - 1] == DiffImageFolderName[|DiffImageFolderName| - 1];
    assert t[|t| - 1] == TempImageFolderName[|TempImageFolderName| - 1];
    SamePrefix(testOutput, DiffImageFolderName, TempImageFolderName);
  }

  /** `JoinPrefix` looks at `b` only to see whether it starts with a separator. */
  lemma SamePrefix(a: string, b1: string, b2: string)
    requires (|b1| > 0 && b1[0] == '/') == (|b2| > 0 && b2[0] == '/')
    ensures JoinPrefix(a, b1) == JoinPrefix(a, b2)
    ensures Join(a, b1) == JoinPrefix(a, b1) + b1 && Join(a, b2) == JoinPrefix(a, b1) + b2
  {
  }

  /** An ending that does not start with '/' leaves the choice of prefix to the name. */
  lemma PrefixOfEnding(a: string, name: string, ending: string)
    requires |ending| > 0 && ending[0] != '/'
    ensures Join(a, name + ending) == JoinPrefix(a, name) + name + ending
  {
    if |name| > 0 {
      assert (name + ending)[0] == name[0];
    }
    SamePrefix(a, name + ending, name);
  }

  /** Joining anything to a plain directory keeps that directory at the front. */
  lemma JoinKeepsPlainDirectory(a: string, b: string)
    requires PlainDirectory(a)
    ensures |a| <= |Join(a, b)| && Join(a, b)[..|a|] == a
  {
    var p := JoinPrefix(a, b);
    assert p[..|a|] == a;
    assert (p + b)[..|a|] == p[..|a|];
  }

  /** The copy and the masked files share the prefix `File.join` puts before the name. */
  lemma TempOutputLengths(testOutput: string, imageName: string)
    ensures var k := |JoinPrefix(TempDir(testOutput), imageName)| + |imageName|;
      && |ReceivedCopy(testOutput, imageName)| == k + 4
      && |MaskedReceived(testOutput, imageName)| == k + 11
      && |MaskedReference(testOutput, imageName)| == k + 15
  {
    var t := TempDir(testOutput);
    PrefixOfEnding(t, imageName, ".png");
    PrefixOfEnding(t, imageName, "_masked.png");
    PrefixOfEnding(t, imageName, "_ref_masked.png");
  }

  /**
   * For a relative name with a folder part, as "sub/x", the file `FileUtils.cp`
   * writes into `screens_temp` under the capture's basename is not the copy
   * the assertion later looks for.
   */
  lemma NestedNameMissesCopy(testOutput: string, run: string, imageName: string)
    requires RelativeName(imageName) && '/' in imageName
    ensures Join(TempDir(testOutput), LastComponent(Join(run, imageName + ".png"))) != ReceivedCopy(testOutput, imageName)
  {
    var t := TempDir(testOutput);
    var source := Join(run, imageName + ".png");
    var base := LastComponent(source);
    var f := imageName + ".png";
    assert source[|source| - 1] == f[|f| - 1] == 'g';
    assert |base| > 0 && base[0] != '/';
    var k :| 0 <= k < |imageName| && imageName[k] == '/';
    assert f[k] == '/';
    assert base != f;
    SamePrefix(t, base, imageName);
    PrefixOfEnding(t, imageName, ".png");
    var p := JoinPrefix(t, imageName);
    assert (p + base)[|p|..] == base;
    assert (p + imageName + ".png")[|p|..] == f;
  }

  /** Every path the assertion derives from its three inputs (lines 15-37). */
  datatype ResolvedPaths = ResolvedPaths(
    imageFileName: string,
    diffDir: string,
    refImage: string,
    mask: string,
    tempDir: string,
    diffImage: string,
    receivedCopy: string,
    maskedReceived: string,
    maskedReference: string)

  /**
   * The reference, the diff and the copy of the capture all end in the same
   * `<name>.png`; masking writes two new files beside the copy and
   * overwrites neither it nor the diff.
   */
  function Resolve(testOutput: string, refImagesPath: string, imageName: string): (r: ResolvedPaths)
    ensures EndsWith(r.refImage, r.imageFileName)
    ensures EndsWith(r.diffImage, r.imageFileName)
    ensures EndsWith(r.receivedCopy, r.imageFileName)
    ensures r.receivedCopy != r.maskedReceived && r.receivedCopy != r.maskedReference
    ensures r.maskedReceived != r.maskedReference && r.diffImage != r.receivedCopy
  {
    assert
      && ReceivedCopy(testOutput, imageName) != MaskedReceived(testOutput, imageName)
      && ReceivedCopy(testOutput, imageName) != MaskedReference(testOutput, imageName)
      && MaskedReceived(testOutput, imageName) != MaskedReference(testOutput, imageName)
      && DiffImage(testOutput, imageName) != ReceivedCopy(testOutput, imageName) by {
      TempOutputsDistinct(testOutput, imageName);
    }
    ResolvedPaths(
      imageName + ".png",
      DiffDir(testOutput),
      RefImage(refImagesPath, imageName),
      MaskPath(refImagesPath, imageName),
      TempDir(testOutput),
      DiffImage(testOutput, imageName),
      ReceivedCopy(testOutput, imageName),
      MaskedReceived(testOutput, imageName),
      MaskedReference(testOutput, imageName))
  }
}

=== FILE: ruby_strings.dfy ===
/**
 * The parts of Ruby's String behaviour the assertion depends on:
 * `to_i`, `to_f`, `gsub` with a literal pattern and an empty replacement,
 * and the test `match(/[0-9]*\.?[0-9]+/)`. Digits are the ASCII digits,
 * as in Ruby's own scanners.
 */
module RubyStrings {

  predicate IsDigit(c: char) { '0' <= c <= '9' }

  predicate AllDigits(s: string) { forall i :: 0 <= i < |s| ==> IsDigit(s[i]) }

  predicate ContainsDigit(s: string) { exists i :: 0 <= i < |s| && IsDigit(s[i]) }

  /** The characters C's `isspace` accepts: space and '\t' through '\r'. */
  predicate IsSpace(c: char) { c == ' ' || '\t' <= c <= '\r' }

  function DigitValue(c: char): (d: nat)
    requires IsDigit(c)
    ensures d < 10
  {
    c as int - '0' as int
  }

  function DigitChar(d: nat): (c: char)
    requires d < 10
    ensures IsDigit(c) && DigitValue(c) == d
  {
    ('0' as int + d) as char
  }

  /** The value of a run of decimal digits, most significant digit first. */
  function DigitsValue(ds: string): nat
    requires AllDigits(ds)
  {
    if |ds| == 0 then 0 else 10 * DigitsValue(ds[..|ds| - 1]) + DigitValue(ds[|ds| - 1])
  }

  function Pow10(k: nat): (p: nat)
    ensures p > 0
  {
    if k == 0 then 1 else 10 * Pow10(k - 1)
  }

  /** Decimal rendering of a natural number; the parsers below read it back. */
  function ShowNat(n: nat): (s: string)
    ensures |s| > 0 && AllDigits(s)
    ensures DigitsValue(s) == n
  {
    if n < 10 then [DigitChar(n)]
    else
      var s := ShowNat(n / 10) + [DigitChar(n % 10)];
      assert s[..|s| - 1] == ShowNat(n / 10);
      s
  }

  /** Drops leading whitespace: what remains is a suffix of `s` that does not start with a space. */
  function SkipSpace(s: string): (r: string)
    ensures |r| <= |s| && r == s[|s| - |r|..]
    ensures |r| == 0 || !IsSpace(r[0])
    ensures forall i :: 0 <= i < |s| - |r| ==> IsSpace(s[i])
  {
    if |s| > 0 && IsSpace(s[0]) then SkipSpace(s[1..]) else s
  }

  /** The longest prefix of `s` made of digits. */
  function LeadingDigits(s: string): (r: string)
    ensures r <= s
    ensures AllDigits(r)
    ensures |r| == |s| || !IsDigit(s[|r|])
  {
    if |s| > 0 && IsDigit(s[0]) then [s[0]] + LeadingDigits(s[1..]) else []
  }

  /**
   * `s.to_i`: leading whitespace, an optional sign, then the longest run of
   * digits; 0 when no digit follows.
   */
  function ToI(s: string): int
  {
    var t := SkipSpace(s);
    if |t| > 0 && t[0] == '-' then -(DigitsValue(LeadingDigits(t[1..])) as int)
    else if |t| > 0 && t[0] == '+' then DigitsValue(LeadingDigits(t[1..]))
    else DigitsValue(LeadingDigits(t))
  }

  /** The value of the digits after a decimal point. */
  function FractionValue(ds: string): real
    requires AllDigits(ds)
  {
    DigitsValue(ds) as real / Pow10(|ds|) as real
  }

  /** The digits after a leading '.' when a digit follows it, else none. */
  function FractionDigits(rest: string): (ds: string)
    ensures AllDigits(ds)
  {
    if |rest| >= 2 && rest[0] == '.' && IsDigit(rest[1]) then LeadingDigits(rest[1..]) else []
  }

  /** The unsigned decimal at the start of `u`, 0.0 when there is none. */
  function UnsignedDecimal(u: string): real
  {
    var whole := LeadingDigits(u);
    DigitsValue(whole) as real + FractionValue(FractionDigits(u[|whole|..]))
  }

  /**
   * `s.to_f`, read as an exact real: leading whitespace, an optional sign,
   * integer digits, and a fraction when a '.' is followed by a digit;
   * 0.0 when no number starts the string.
   */
  function ToF(s: string): real
  {
    var t := SkipSpace(s);
    if |t| > 0 && t[0] == '-' then -UnsignedDecimal(t[1..])
    else if |t| > 0 && t[0] == '+' then UnsignedDecimal(t[1..])
    else UnsignedDecimal(t)
  }

  /** The strings matched in full by /[0-9]*\.?[0-9]+/. */
  predicate IsNumberToken(w: string) {
    || (|w| > 0 && AllDigits(w))
    || (exists k :: 0 <= k < |w| - 1 && w[k] == '.' && AllDigits(w[..k]) && AllDigits(w[k + 1..]))
  }

  /** `s.match(/[0-9]*\.?[0-9]+/)` is not nil: some substring of `s` is a number token. */
  predicate MatchesNumberToken(s: string) {
    exists i, j :: 0 <= i <= j <= |s| && IsNumberToken(s[i..j])
  }

  /** `s.gsub(pat, '')` for a literal pattern: deletes the non-overlapping occurrences found left to right. */
  function GsubDelete(s: string, pat: string): (r: string)
    requires |pat| > 0
    ensures |r| <= |s|
    ensures forall c :: c in r ==> c in s
    decreases |s|
  {
    if |s| < |pat| then s
    else if s[..|pat|] == pat then GsubDelete(s[|pat|..], pat)
    else [s[0]] + GsubDelete(s[1..], pat)
  }

  /** The number regex finds a match exactly when the text holds a digit. */
  lemma MatchesNumberTokenIffDigit(s: string)
    ensures MatchesNumberToken(s) <==> ContainsDigit(s)
  {
    if ContainsDigit(s) {
      var i :| 0 <= i < |s| && IsDigit(s[i]);
      assert IsNumberToken(s[i..i + 1]);
    }
    if MatchesNumberToken(s) {
      var i, j :| 0 <= i <= j <= |s| && IsNumberToken(s[i..j]);
      var w := s[i..j];
      if !(|w| > 0 && AllDigits(w)) {
        var k :| 0 <= k < |w| - 1 && w[k] == '.' && AllDigits(w[..k]) && AllDigits(w[k + 1..]);
        assert w[k + 1..][|w| - k - 2] == w[|w| - 1];
      }
      assert IsDigit(s[j - 1]);
    }
  }

  /** `pat` occurs in `s` starting at index `i`. */
  predicate OccursAt(s: string, pat: string, i: int) {
    0 <= i && i + |pat| <= |s| && s[i..i + |pat|] == pat
  }

  /** A text in which the pattern does not occur is left unchanged. */
  lemma {:induction false} GsubDeleteWithoutOccurrence(s: string, pat: string)
    requires |pat| > 0 && forall i :: !OccursAt(s, pat, i)
    ensures GsubDelete(s, pat) == s
    decreases |s|
  {
    if |s| >= |pat| {
      assert !OccursAt(s, pat, 0);
      forall i | 0 <= i && i + |pat| <= |s| - 1
        ensures !OccursAt(s[1..], pat, i)
      {
        assert s[1..][i..i + |pat|] == s[i + 1..i + 1 + |pat|];
        assert !OccursAt(s, pat, i + 1);
      }
      GsubDeleteWithoutOccurrence(s[1..], pat);
      assert s == [s[0]] + s[1..];
    }
  }

  /** An occurrence at the front is deleted and the deletion goes on after it. */
  lemma GsubDeleteLeading(pat: string, t: string)
    requires |pat| > 0
    ensures GsubDelete(pat + t, pat) == GsubDelete(t, pat)
  {
    assert (pat + t)[..|pat|] == pat && (pat + t)[|pat|..] == t;
  }

  /** A pattern holding a '/' does not occur in a text without one, so the text is left unchanged. */
  lemma GsubDeleteWithoutSeparator(s: string, pat: string)
    requires |pat| > 0 && '/' in pat && '/' !in s
    ensures GsubDelete(s, pat) == s
  {
    var k :| 0 <= k < |pat| && pat[k] == '/';
    forall i | 0 <= i && i + |pat| <= |s|
      ensures !OccursAt(s, pat, i)
    {
      assert s[i..i + |pat|][k] == s[i + k] != '/';
    }
    GsubDeleteWithoutOccurrence(s, pat);
  }

  lemma LeadingDigitsOfNumber(ds: string, rest: string)
    requires AllDigits(ds)
    requires |rest| == 0 || !IsDigit(rest[0])
    ensures LeadingDigits(ds + rest) == ds
  {
    var x := ds + rest;
    assert forall i :: 0 <= i < |ds| ==> x[i] == ds[i];
    assert |rest| > 0 ==> x[|ds|] == rest[0];
    assert x[..|ds|] == ds;
  }

  lemma NoDigitNoLeadingDigits(s: string)
    requires !ContainsDigit(s)
    ensures LeadingDigits(s) == []
  {
  }

  /** A suffix of a text without digits has no digits either. */
  lemma NoDigitInSuffix(s: string, k: nat)
    requires !ContainsDigit(s) && k <= |s|
    ensures !ContainsDigit(s[k..])
  {
    forall i | 0 <= i < |s[k..]|
      ensures !IsDigit(s[k..][i])
    {
      assert s[k + i] == s[k..][i];
    }
  }

  /** A text that does not start with whitespace is its own `SkipSpace`. */
  lemma SkipSpaceNoSpace(s: string)
    requires |s| == 0 || !IsSpace(s[0])
    ensures SkipSpace(s) == s
  {
  }

  /**
   * `to_i` reads back the decimal rendering of a number when the text after
   * it does not continue the number: neither a digit nor an underscore, nor
   * a 'd' or 'D' after a lone 0, which Ruby would take as a "0d" prefix.
   */
  lemma ToIShowNat(n: nat, rest: string)
    requires |rest| == 0 || !IsDigit(rest[0])
    requires |rest| == 0 || rest[0] != '_'
    requires n != 0 || |rest| == 0 || (rest[0] != 'd' && rest[0] != 'D')
    ensures ToI(ShowNat(n) + rest) == n
    ensures ToI("-" + ShowNat(n) + rest) == -(n as int)
  {
    ReadDecimal(n, rest);
  }

  lemma ReadDecimal(n: nat, rest: string)
    requires |rest| == 0 || !IsDigit(rest[0])
    ensures ToI(ShowNat(n) + rest) == n
    ensures ToI("-" + ShowNat(n) + rest) == -(n as int)
  {
    var w := ShowNat(n);
    var s := w + rest;
    assert s[0] == w[0];
    SkipSpaceNoSpace(s);
    LeadingDigitsOfNumber(w, rest);
    assert ToI(s) == DigitsValue(LeadingDigits(s));
    var m := "-" + s;
    SkipSpaceNoSpace(m);
    assert m[1..] == s;
    assert ToI(m) == -(DigitsValue(LeadingDigits(s)) as int);
    assert "-" + w + rest == m;
  }

  /** A text without digits reads as 0 under `to_i`. */
  lemma ToIWithoutDigit(s: string)
    requires !ContainsDigit(s)
    ensures ToI(s) == 0
  {
    var t := SkipSpace(s);
    NoDigitInSuffix(s, |s| - |t|);
    NoDigitNoLeadingDigits(t);
    if |t| > 0 {
      NoDigitInSuffix(t, 1);
      NoDigitNoLeadingDigits(t[1..]);
    }
  }

  /** `to_i` is 0 when the text does not start with whitespace, a sign or a digit. */
  lemma ToIWithoutLeadingNumber(s: string)
    requires |s| == 0 || (!IsSpace(s[0]) && !IsDigit(s[0]) && s[0] != '+' && s[0] != '-')
    ensures ToI(s) == 0
  {
    if |s| > 0 {
      assert SkipSpace(s) == s;
      assert LeadingDigits(s) == [];
    }
  }

  /** Text that starts with anything but whitespace, a sign, a digit or a '.' reads as 0.0. */
  lemma ToFWithoutLeadingNumber(s: string)
    requires |s| > 0 && !IsSpace(s[0]) && !IsDigit(s[0])
    requires s[0] != '-' && s[0] != '+' && s[0] != '.'
    ensures ToF(s) == 0.0
  {
    assert SkipSpace(s) == s;
    assert LeadingDigits(s) == [];
  }

  /**
   * `to_f` of digits followed by text that does not start with a digit:
   * the digits, plus the fraction when the text continues with '.' and a digit.
   */
  lemma ToFOfDigits(whole: string, rest: string)
    requires |whole| > 0 && AllDigits(whole)
    requires |rest| == 0 || !IsDigit(rest[0])
    ensures ToF(whole + rest) == DigitsValue(whole) as real + FractionValue(FractionDigits(rest))
  {
    var s := whole + rest;
    assert s[0] == whole[0];
    SkipSpaceNoSpace(s);
    assert ToF(s) == UnsignedDecimal(s);
    LeadingDigitsOfNumber(whole, rest);
    assert s[|whole|..] == rest;
  }

  /**
   * `to_f` reads back a decimal `whole.digits` followed by any text that
   * does not continue the number: not a digit, and neither an exponent
   * mark nor an underscore, which Ruby would read on.
   */
  lemma ToFDecimal(whole: nat, digits: string, rest: string)
    requires |digits| > 0 && AllDigits(digits)
    requires |rest| == 0 || !IsDigit(rest[0])
    requires |rest| == 0 || rest[0] !in {'e', 'E', '_'}
    ensures ToF(ShowNat(whole) + "." + digits + rest) == whole as real + FractionValue(digits)
  {
    DecimalOfDigits(ShowNat(whole), digits, rest);
  }

  lemma DecimalOfDigits(w: string, digits: string, rest: string)
    requires |w| > 0 && AllDigits(w)
    requires |digits| > 0 && AllDigits(digits)
    requires |rest| == 0 || !IsDigit(rest[0])
    ensures ToF(w + "." + digits + rest) == DigitsValue(w) as real + FractionValue(digits)
  {
    var tail := "." + digits + rest;
    FractionDigitsOfDecimal(digits, rest);
    ToFOfDigits(w, tail);
    DecimalSplit(w, digits, rest);
  }

  lemma DecimalSplit(w: string, digits: string, rest: string)
    ensures w + "." + digits + rest == w + ("." + digits + rest)
  {
  }

  lemma FractionDigitsOfDecimal(digits: string, rest: string)
    requires |digits| > 0 && AllDigits(digits)
    requires |rest| == 0 || !IsDigit(rest[0])
    ensures FractionDigits("." + digits + rest) == digits
  {
    var tail := "." + digits + rest;
    assert tail[0] == '.' && tail[1] == digits[0];
    assert tail[1..] == digits + rest;
    LeadingDigitsOfNumber(digits, rest);
  }

  /**
   * `to_f` reads back a whole number followed by text that does not continue
   * it: no digit, fraction, exponent mark or underscore.
   */
  lemma ToFShowNat(n: nat, rest: string)
    requires |rest| == 0 || !IsDigit(rest[0])
    requires |rest| == 0 || rest[0] !in {'e', 'E', '_'}
    requires |rest| < 2 || rest[0] != '.' || !IsDigit(rest[1])
    ensures ToF(ShowNat(n) + rest) == n as real
  {
    var w := ShowNat(n);
    assert FractionValue(FractionDigits(rest)) == 0.0 by {
      assert FractionDigits(rest) == [];
      assert DigitsValue([]) == 0 && Pow10(0) == 1;
    }
    assert ToF(w + rest) == DigitsValue(w) as real + FractionValue(FractionDigits(rest)) by {
      ToFOfDigits(w, rest);
    }
  }
}

=== FILE: run_locator.dfy ===
/**
 * `find_last_folder`: among the entries `Dir.glob("<test_output>/Run*")`
 * returns, the one whose text after "<test_output>/Run" has the largest
 * `to_i`. The listing itself is an input: globbing the disk is not modelled.
 */
module RunLocator {
  import opened Wrappers
  import opened RubyStrings

  /** The literal prefix the run folders are globbed by and stripped of (line 66). */
  function FolderMask(testOutput: string): string {
    testOutput + "/Run"
  }

  /**
   * The sort key of an entry: the entry with every occurrence of the mask
   * deleted, read by `to_i` (line 72). Deleting never adds a digit, so an
   * entry without digits sorts as run 0.
   */
  function RunNumber(testOutput: string, entry: string): (k: int)
    ensures !ContainsDigit(entry) ==> k == 0
  {
    var rest := GsubDelete(entry, FolderMask(testOutput));
    assert !ContainsDigit(entry) ==> ToI(rest) == 0 by {
      if !ContainsDigit(entry) {
        assert forall i :: 0 <= i < |rest| ==> rest[i] in entry;
        ToIWithoutDigit(rest);
      }
    }
    ToI(rest)
  }

  /**
   * Lines 64-74. The source sorts by descending key and takes the first
   * element; Ruby's sort is not stable, so among entries with equal keys
   * which one comes first is unspecified. This model keeps the earliest,
   * and the contract promises only that the chosen key is maximal.
   */
  function FindLastFolder(testOutput: string, runFolders: seq<string>): (r: Option<string>)
    ensures r.None? <==> |runFolders| == 0
    ensures r.Some? ==> r.value in runFolders
    ensures r.Some? ==> forall e :: e in runFolders ==> RunNumber(testOutput, e) <= RunNumber(testOutput, r.value)
  {
    if |runFolders| == 0 then None
    else
      match FindLastFolder(testOutput, runFolders[1..])
      case None => Some(runFolders[0])
      case Some(best) =>
        if RunNumber(testOutput, best) <= RunNumber(testOutput, runFolders[0]) then Some(runFolders[0])
        else Some(best)
  }

  /** A globbed entry is the mask followed by a name without '/'; its key is that name's `to_i`. */
  lemma RunNumberOfEntry(testOutput: string, name: string)
    requires '/' !in name
    ensures RunNumber(testOutput, FolderMask(testOutput) + name) == ToI(name)
  {
    var mask := FolderMask(testOutput);
    assert mask[|mask| - 4] == '/';
    assert (mask + name)[..|mask|] == mask;
    assert (mask + name)[|mask|..] == name;
    GsubDeleteWithoutSeparator(name, mask);
  }

  /** `Run<n>` has key n: the comparison is numeric, so Run10 sorts above Run2. */
  lemma RunNumberOfNumberedEntry(testOutput: string, n: nat)
    ensures RunNumber(testOutput, FolderMask(testOutput) + ShowNat(n)) == n
  {
    var s := ShowNat(n);
    DigitsHaveNoSeparator(s);
    RunNumberOfEntry(testOutput, s);
    ToIShowNat(n, []);
    assert s + [] == s;
  }

  /** The entries `<test_output>/Run<n>` for the numbers `ns`, in that order. */
  function RunEntries(testOutput: string, ns: seq<nat>): (es: seq<string>)
    ensures |es| == |ns|
    ensures forall i :: 0 <= i < |ns| ==> es[i] == FolderMask(testOutput) + ShowNat(ns[i])
  {
    seq(|ns|, i requires 0 <= i < |ns| => FolderMask(testOutput) + ShowNat(ns[i]))
  }

  /**
   * When every run folder is `Run<n>`, the result is the folder of the
   * largest n, whatever the listing order: ties have equal names.
   */
  lemma LatestRunByNumber(testOutput: string, ns: seq<nat>, m: nat)
    requires m in ns
    requires forall k :: k in ns ==> k <= m
    ensures FindLastFolder(testOutput, RunEntries(testOutput, ns)) == Some(FolderMask(testOutput) + ShowNat(m))
  {
    var es := RunEntries(testOutput, ns);
    var r := FindLastFolder(testOutput, es);
    var i :| 0 <= i < |es| && es[i] == r.value;
    var j :| 0 <= j < |ns| && ns[j] == m;
    RunNumberOfNumberedEntry(testOutput, ns[i]);
    RunNumberOfNumberedEntry(testOutput, m);
    assert es[j] in es;
    assert RunNumber(testOutput, es[j]) == m;
    assert RunNumber(testOutput, r.value) == ns[i];
    assert ns[i] in ns;
    assert ns[i] == m;
  }

  /** Run1, Run2 and Run10: Run10 is chosen, not the lexically largest Run2. */
  lemma Run10BeatsRun2(testOutput: string)
    ensures FindLastFolder(testOutput, RunEntries(testOutput, [1, 2, 10])) == Some(FolderMask(testOutput) + "10")
  {
    LatestRunByNumber(testOutput, [1, 2, 10], 10);
    SmallNumerals();
  }

  lemma SmallNumerals()
    ensures ShowNat(1) == "1" && ShowNat(2) == "2" && ShowNat(10) == "10"
  {
  }

  lemma DigitsHaveNoSeparator(s: string)
    requires AllDigits(s)
    ensures '/' !in s
  {
  }

  /**
   * A suffix that does not start with whitespace, a sign or a digit counts
   * as run 0, whatever digits follow ("Run_7" sorts with "Runx").
   */
  lemma NonNumericSuffixIsZero(testOutput: string, name: string)
    requires '/' !in name
    requires |name| == 0 || (!IsDigit(name[0]) && !IsSpace(name[0]) && name[0] != '+' && name[0] != '-')
    ensures RunNumber(testOutput, FolderMask(testOutput) + name) == 0
  {
    RunNumberOfEntry(testOutput, name);
    ToIWithoutLeadingNumber(name);
  }
}

=== FILE: wrappers.dfy ===
/** Optional values and success-or-exception results, shared by the whole model. */
module Wrappers {

  /** A value that may be absent; Ruby's `nil` becomes `None`. */
  datatype Option<+T> = None | Some(value: T)

  /** What a Ruby call does: return a value, or raise an exception. */
  datatype Result<+T, +E> = Ok(value: T) | Err(error: E)
}
